=== FILE: README.md ===
# Safety score of a URL, modelled in Dafny

The scanner classifies a URL typed by a user (`calculate_safety_score` in
`app/scanner.py`). It consults a fixed sequence of evidence sources and
answers with the first one that decides:

1. it normalises the input;
2. a whitelist of trusted domains gives score 100;
3. the internal database of reported sites gives score 0;
4. the PhishTank blocklist gives score 0;
5. a reachability probe gives score 0 if the site is down;
6. otherwise a rule-based score starts at 90, loses points for each warning
   sign, is clamped into 0..100 and is bucketed into a risk level.

The model is functional. The database's answers, the loaded blocklist and
the probe's result are parameters (`Scanner.Env`), so one scan is a pure
function `Scanner.Scan(raw, env)`. A scan returns the verdict dictionary
(`url`, `score`, `risk_level`, `details`, `sources`). It also returns the
trail of sources consulted, so that statements like "a trusted site causes
no database query and no request" can be written down and proved.

Modules, one file each:

- `Options`: the `Option` type.
- `Text`: strip, ASCII lower-casing, prefix/suffix/substring tests,
  `str.replace(pat, "")`, `split(sep)[0]`, `join`.
- `Url`: normalisation (lines 33-46) and blocklist-entry cleaning (line 22).
- `Whitelist`: the 34 trusted tokens and the matching rule.
- `PhishTank`: building the blocklist from the feed.
- `Repository`: the exact and "contains" database lookups.
- `Heuristic`: the rule-based score.
- `Scanner`: the short-circuiting sequence of sources.

## Model

`Scanner.Scan` is `calculate_safety_score`, and `Scanner.Decide` and
`Scanner.Deciding` are its chain of sources. Their contracts are the
`Scanner.*` lemma rows. The row for `Whitelist.WhitelistIsExactOrDotSuffix`
states the contract of `Whitelist.IsWhitelisted` (lines 72-81).
`Heuristic.MatchesOctetsIffShape` and the rows after it state the contract
of `Heuristic.IsDottedQuad` (line 162). `Text.RemoveAllAbsent` and
`Text.RemoveAllConcat` state that of `Text.RemoveAll` (`replace(pat, "")`).
`Repository.FirstExactIndex` states that of `Repository.ExactMatch`
(line 99). `Url.AfterScheme` and `Url.NetlocOrPath` state that of
`Url.DropUnsafe` (line 41). `Url.DropParams` has its own row.

| member | source | states |
|---|---|---|
| Text.Strip | app/scanner.py:33 | The result has no whitespace at either end, and the input is the result with only whitespace before and after it. |
| Text.StripStripped | app/scanner.py:33 | Stripping text that already has no whitespace at either end returns it unchanged. |
| Text.Lower | app/scanner.py:33 | Lower-casing turns each of A-Z into its lower-case letter and keeps every other character. |
| Text.StripThenLower | app/scanner.py:33 | `strip().lower()` of a text is trimmed, and is the text's middle part, after only whitespace was cut from both ends, with A-Z lower-cased. |
| Text.LowerIdempotent | app/scanner.py:33 | Lower-casing text with no upper-case letter returns it unchanged. |
| Text.RemoveAllAbsent | app/scanner.py:43 | Replacing a pattern that does not occur with "" leaves the text unchanged. |
| Text.RemoveAllConcat | app/scanner.py:22 | When no occurrence straddles the seam, replacing a pattern with "" in `a + b` works on `a` and `b` separately. |
| Text.BeforeFirst | app/scanner.py:22 | `split(sep)[0]` is a prefix without `sep`, and is followed by `sep` unless it is the whole text. |
| Url.CleanEntry | app/scanner.py:22 | A cleaned blocklist entry never contains '/' and is no longer than the entry. |
| Url.CleanEntryExtractsHost | app/scanner.py:22 | Cleaning `scheme + www + host + path` returns exactly the host, whichever scheme ("", http://, https://), with or without "www.". |
| Url.AfterScheme | app/scanner.py:41 | Deleting tab, CR and LF from the URL leaves its `http://` or `https://` prefix followed by the returned text, which holds none of them. |
| Url.NetlocOrPath | app/scanner.py:41-42 | The result is a prefix of the text after the scheme. When that text starts with a network location, the result is all of it: non-empty, without '/', '?' or '#', and ended by one of them or the end of the text. Otherwise it is the path up to the first '?' or '#', with its `;params` cut. It never holds tab, CR or LF. |
| Url.DropParams | app/scanner.py:41 | `urlparse` cuts the path at the first ';' after its last '/', or at its first ';' when it has no '/'. It keeps the whole path when there is no such ';'. |
| Url.NetlocOfHostUrl | app/scanner.py:41-42 | The network location of `scheme + host + path` is the host. |
| Url.Normalize | app/scanner.py:33-46 | `input_url` is the raw input with surrounding whitespace cut and A-Z lower-cased. `check_url` always has a scheme: it is `input_url` when that has one, otherwise "https://" + `input_url`. `domain` is the network location (or path) of `check_url` with every "www." removed, and holds no line feed. `raw_domain` is the line-22 cleaning of `input_url`. |
| Url.CheckUrlOfHostUrl | app/scanner.py:33-39 | A URL built from a scheme, a host and a lower-case path is its own `input_url`. Its `check_url` gets "https://" exactly when it had no scheme. |
| Url.DomainOfHostUrl | app/scanner.py:41-43 | The `domain` of `scheme + www + host + path` is the host. |
| Url.NormalizeExtractsHost | app/scanner.py:33-46 | Normalising `scheme + www + host + path` keeps it as `input_url` and yields the host as both `domain` and `raw_domain`. |
| Url.NormalizeIdempotent | app/scanner.py:33-46 | Normalising `input_url` again gives the same four fields. |
| Whitelist.AnyContained | app/scanner.py:75 | True exactly when some entry occurs somewhere in the domain. |
| Whitelist.AnySuffixMatch | app/scanner.py:78-81 | True exactly when the domain equals some entry or ends with "." + that entry. |
| Whitelist.SuffixMatchIsContained | app/scanner.py:75-79 | An exact or dot-suffix match always passes the containment guard. |
| Whitelist.WhitelistIsExactOrDotSuffix | app/scanner.py:72-81 | Trusted iff `raw_domain` is an entry, or `domain` equals an entry or ends with "." + an entry. Containment alone never suffices. |
| Whitelist.SpoofedDomainNotWhitelisted | app/scanner.py:75-81 | "fake-google.com" is not trusted, although it contains "google". |
| Whitelist.SubdomainWhitelisted | app/scanner.py:79 | "mail.google.com" is trusted as a dot-suffix of "google.com". |
| PhishTank.LoadablePrefix | app/scanner.py:20-25 | Counts the well-formed entries before the first malformed one. |
| PhishTank.Load | app/scanner.py:15-25 | An absent or unparsable feed gives the empty set. Otherwise a domain is in the set iff it is the cleaning of an entry before the first malformed one (`LoadedFrom`). |
| Repository.Take | app/scanner.py:105 | `.limit(n)` keeps at most n rows, as a prefix, and keeps all rows when there are no more than n. |
| Repository.FirstExactIndex | app/scanner.py:99 | Points to the first record with the given url, or past the end when there is none. |
| Repository.FirstAcceptedIndex | app/scanner.py:106-110 | Points to the first row that equals the input or is a prefix of it, or past the end when there is none. |
| Repository.Lookup | app/scanner.py:99-110 | A record is reported iff a stored url equals the input, or the input is longer than 6 and one of the first 5 "contains" rows equals it or is a prefix of it. An exact match wins and is the first one. Without an exact match, the reported row is the first of those 5 rows that equals the input or is a prefix of it. |
| Repository.ShortInputMatchesOnlyExactly | app/scanner.py:104 | Inputs of at most 6 characters never use the "contains" search and only match exactly. |
| Repository.ContainedRowAcceptedOnlyIfEqual | app/scanner.py:105-108 | A row that contains the input is accepted iff it equals the input. |
| Repository.HonestContainsRowsAddNothing | app/scanner.py:102-110 | If the "contains" rows are stored records containing the input, the partial search finds nothing the exact query did not. |
| Repository.SubPageMissedAsWritten | app/scanner.py:105-109 | With "evil.com" stored and "evil.com/login" typed, the stored url is a prefix of the input but does not contain it, so the lookup reports nothing. |
| Repository.IntendedLookup | app/scanner.py:99-109 | The intended lookup reports a record iff one equals the input, or the input is longer than 6 and extends or equals some stored url. What it reports is a stored record that equals the input or is a prefix of it. |
| Repository.SubPageFoundAsIntended | app/scanner.py:105-109 | For the same store and input, the intended lookup reports the "evil.com" record. |
| Repository.FirstExtendingIndex | app/scanner.py:106-109 | Points to the first row whose url starts with the input, or past the end when there is none. |
| Repository.SubPageOfInputLookup | app/scanner.py:99-109 | Under the comment's reading, a record is reported iff a stored url equals the input, or the input is longer than 6 and one of the first 5 "contains" rows starts with it. An exact match wins. Otherwise the reported row is the first of those 5 rows that starts with the input. |
| Repository.StoredSubPageMissedAsWritten | app/scanner.py:105-109 | With "evil.com/login" stored and returned by the "contains" query for "evil.com", the row contains and extends the input, yet the lookup reports nothing. |
| Repository.StoredSubPageFoundAsIntended | app/scanner.py:105-109 | For the same store and input, the comment's reading reports the "evil.com/login" record. |
| Heuristic.DigitRun | app/scanner.py:162 | Counts the leading digits: all are digits, and the next character is not. |
| Heuristic.MatchesOctetsIffShape | app/scanner.py:162 | The matcher accepts exactly the strings made of 1-3-digit groups joined by the given number of dots. |
| Heuristic.OctetsAreDottedQuad | app/scanner.py:162 | Any four 1-3-digit groups joined by dots match the IP pattern. |
| Heuristic.PrivateAddressIsDottedQuad | app/scanner.py:162 | "192.168.1.1" matches the IP pattern. |
| Heuristic.LongGroupIsNotDottedQuad | app/scanner.py:162 | A four-digit group ("1234.1.1.1") does not match. |
| Heuristic.FoundWords | app/scanner.py:171 | The words found are exactly the listed words occurring in the text, in list order. |
| Heuristic.NoneFound | app/scanner.py:171-172 | When no word occurs, nothing is found. |
| Heuristic.DeductionsParts | app/scanner.py:158-174 | Total points taken off are 25/40/10/20 for each check that fires. The notes are the fired checks' notes, in check order. |
| Heuristic.Clamp | app/scanner.py:176 | `max(0, min(100, x))` is in 0..100, is x inside that range, and is 0 or 100 outside it. |
| Heuristic.RiskLevel | app/scanner.py:177-181 | "Tehlikeli" iff below 50, "Şüpheli" iff 50..79, "Güvenli" iff 80 or more. |
| Heuristic.Assess | app/scanner.py:155-183 | The score is 90 minus the points of the fired checks, clamped, so it lies in 0..90. The level is its bucket. The details are the fired notes in order, or just "Temiz görünüyor." when none fired. |
| Heuristic.FullScoreIffClean | app/scanner.py:155-183 | The score is 90 iff no check fires, iff the details are just the clean note. |
| Heuristic.ClampOnlyWhenAllFire | app/scanner.py:176 | Clamping changes the score only when all four checks fire, and then the score is 0. |
| Heuristic.NotesMatchChecks | app/scanner.py:158-168 | Each of the HTTP, IP and length notes is present iff its check fires. |
| Heuristic.KeywordNoteIff | app/scanner.py:170-174 | The keyword note is present iff some suspicious word occurs in the lower-cased input. |
| Heuristic.InsecureIpLoginAssessment | app/scanner.py:155-181 | "http://192.168.1.1/login" scores 90-25-40-20 = 5, "Tehlikeli", with the three notes. |
| Heuristic.CleanHttpsAssessment | app/scanner.py:155-183 | "https://example.com" keeps 90, "Güvenli", with only the clean note. |
| Scanner.VerdictShape | app/scanner.py:83-188 | Every verdict echoes `input_url` and names exactly one source. The whitelist is always consulted first. |
| Scanner.ScoreRange | app/scanner.py:83-188 | Every score is in 0..100, and it is 100 iff the site is whitelisted. |
| Scanner.LevelNamesDecision | app/scanner.py:83-150 | Each of the four fixed risk levels is given iff its own source decided. |
| Scanner.TrustedShortCircuits | app/scanner.py:83-88 | A whitelisted site gets the trusted verdict, and its trail is the whitelist alone: no query, no lookup, no request. |
| Scanner.ReportedIff | app/scanner.py:93-123 | The database verdict is given iff the site is not trusted, a session exists, and the lookup reports a record. |
| Scanner.BlocklistedIff | app/scanner.py:128-133 | The blocklist verdict is given iff the site is not trusted, the database reports nothing, and `domain` is in the set. |
| Scanner.BlocklistDecides | app/scanner.py:128-133 | A blocklisted domain that passed the first two sources gets the blocklist verdict. |
| Scanner.ProbeOnlyAfterLists | app/scanner.py:128-150 | The request is sent iff the whitelist, the database and the blocklist all passed. Scoring happens iff the request was sent and the site is up. |
| Scanner.UnreachableIff | app/scanner.py:138-150 | Once probed, the site is reported unreachable iff it did not answer with a status below 400. |
| Scanner.ScoredCarriesAssessment | app/scanner.py:145-188 | A scan that reaches scoring had a site that was up, and returns the rule-based assessment unchanged. |
| Scanner.PassesLists | app/scanner.py:128-188 | A site that passes all three lists is probed. It is then scored if up and reported unreachable if down, whatever its features. |
| Scanner.NoSessionNoQuery | app/scanner.py:93 | Without a database session no query is made. |
| Scanner.ShortInputNoContainsQuery | app/scanner.py:104 | Inputs of at most 6 characters never trigger the "contains" query. |
| Scanner.ContainsQueryFollowsExact | app/scanner.py:99-105 | The "contains" query is made iff the site is not trusted, a session exists, the exact query found nothing, and the input is longer than 6. |
| Scanner.ScanOfNormalForm | app/scanner.py:33-46 | Scanning `input_url` again gives the same outcome as scanning the raw input. |
| Scanner.BlocklistedHostCaught | app/scanner.py:33-133 | A blocklisted host is caught in any typed form whose trimmed, lower-cased text is scheme + "www." + host + path. The scheme is optional, as is "www.". The path may be any path, and any letter case and surrounding whitespace are allowed. The host is a lower-case name without "www." in it. |
| Scanner.FeedEntryBlocksScan | app/scanner.py:15-133 | A loaded feed entry `scheme + www + host + path` blocks a scan of the same host in every typed form that `Scanner.BlocklistedHostCaught` covers. |
| Scanner.UnlistedHostReachesProbe | app/scanner.py:33-150 | A host that no list holds, in every typed form that `Scanner.BlocklistedHostCaught` covers, is probed, then scored on its normal form or reported unreachable. |
| Scanner.NoEntryAfterDot | app/scanner.py:72-81 | A host is not trusted when neither it nor any part after one of its dots is an entry. |
| Scanner.NumericLabelsNotTrusted | app/scanner.py:72-81 | A host whose labels all start with a digit, such as an IPv4 address, is never trusted. |
| Scanner.SubdomainEscapesBlocklist | app/scanner.py:128-133 | With only "evil.com" blocklisted, "login.evil.com" is not blocklisted and goes on to the probe. |
| Scanner.InsecureIpLoginScan | app/scanner.py:155-181 | Scanning "http://192.168.1.1/login", unlisted and up, gives 5, "Tehlikeli", with the HTTP, IP and "login" notes. |
| Scanner.CleanSiteScan | app/scanner.py:155-183 | Scanning "https://example.com", unlisted and up, gives 90, "Güvenli", with only the clean note. |

Facts about `app/scanner.py` that shape the model:

- The blocklist is matched on the whole `domain` (line 128), so a
  sub-domain of a blocklisted domain is not caught
  (`Scanner.SubdomainEscapesBlocklist`).
- Every "www." is removed, wherever it occurs (lines 22, 43, 46).
- The blocklist is looked up with `domain`, the whitelist with both
  `raw_domain` and `domain` (lines 73-79, 128).
- The suspicious words are login, giris, verify, onay, bank, account,
  hesap, update and bonus, searched in that order (line 170).
- Empty input is not rejected here. Every string, including an empty one,
  has a normal form and a verdict.

## Findings

| source | as written | input that shows it | evidently intended | confidence | as-written member | corrected member |
|---|---|---|---|---|---|---|
| app/scanner.py:105-109 | The candidates of the "sub-page" test are stored urls that contain the input, so `input_url.startswith(pm.url)` holds only when `pm.url` equals the input. A sub-page of a reported site is never found (`Repository.HonestContainsRowsAddNothing`). | "evil.com" stored, "evil.com/login" typed: no stored url contains the input, so nothing is reported. | Report the first stored url that the input equals or extends, as the prefix test of line 108 asks. The comment of line 107 reads the other way; the next row covers that reading. | medium, not executed: the branch can still fire when the input holds the SQL `LIKE` wildcards '%' or '_' | Repository.SubPageMissedAsWritten | Repository.IntendedLookup |
| app/scanner.py:105-109 | Under the reading of the comment on line 107, the loop should keep a "contains" row that is the input or a sub-page of it. The test of line 108 asks whether the input extends the row instead, so a stored sub-page of the input is rejected. | "evil.com/login" stored, "evil.com" typed: the "contains" query returns that record, and nothing is reported. | Report the first of the five "contains" rows whose url equals or starts with the input. | medium, not executed: the intent is read from the comment alone | Repository.StoredSubPageMissedAsWritten | Repository.SubPageOfInputLookup |

`Repository.SubPageFoundAsIntended` and
`Repository.StoredSubPageFoundAsIntended` show that each corrected lookup
reports the record for its example input. `Scanner` keeps the query as
written, so its verdicts are the ones the code gives.

## Left out

- Network I/O: `requests.get(check_url, timeout=3)` is not modelled. Its
  outcome is the parameter `Env.probe`, either a status code or a failure.
  The timeout and the difference between failure causes are not modelled.
- File I/O and JSON parsing at start-up (lines 12-19): `PhishTank.Load`
  receives the parsed feed, or None when the file is missing or invalid.
  Any entry on which `entry['url'].replace` raises is `Malformed`.
- Database errors: nothing catches an exception raised by either query
  (lines 99, 105), so it propagates out of `calculate_safety_score`. The
  model's database always answers, and `Scanner.Scan` has no error outcome.
- SQLAlchemy: `Repository.Lookup` receives the stored records in the order
  the database returns them, and the rows of the `contains` query. The
  model does not check that those rows really contain the input (SQL `LIKE`
  semantics). `Repository.HonestContainsRowsAddNothing` states what follows
  when they do.
- `app/main.py`, with its HTTP routes, session lifecycle and record
  creation, is not part of this model.
- Url.NetlocOrPath: `urlparse` is modelled only for the forms the scanner
  produces, namely `http://` or `https://` followed by the rest. Ports,
  user info, IPv6 brackets and the errors `urlparse` raises for them are
  not modelled, and the netloc keeps them as text. Neither is the
  `ValueError` that `urlsplit` raises when NFKC normalisation of a
  non-ASCII netloc introduces '/', '?', '#', '@' or ':'. For example,
  "example.com／login" with a fullwidth slash makes line 41 raise, while
  the model returns the domain "example.com／login" and a verdict.
- Text.Strip: whitespace is only what `str.isspace` accepts among ASCII
  and Latin-1 characters. The other Unicode space characters are not
  modelled.
- Text.Lower: only the ASCII letters A-Z are lower-cased. Unicode case
  mappings are not modelled, including those that change the length, such
  as 'İ'.
- Heuristic.MatchesOctetsIffShape: `\d` is taken to be the ASCII digits
  0-9. Python's `re` also accepts other Unicode decimal digits.
- Url.CleanEntry: its own contract only bounds the result. What cleaning
  yields is stated by `Url.CleanEntryExtractsHost`, and only for inputs
  shaped scheme + optional "www." + host + path.
- Integer widths do not matter: every score is a small integer in Python.

=== FILE: heuristic.dfy ===
/**
  The last evidence source: a rule-based score for a reachable site
  (app/scanner.py:155-188). Four checks each take a fixed number of points
  off a base of 90, the result is clamped into 0..100 and bucketed into a
  risk level, and every check that fires leaves a note in the details.
 */
module Heuristic {
  import opened Text
  import opened Url

  const BaseScore: int := 90
  const HttpPenalty: int := 25
  const IpPenalty: int := 40
  const LengthPenalty: int := 10
  const KeywordPenalty: int := 20

  /** Inputs longer than this are penalised. */
  const MaxUrlLength: nat := 75

  /** Scores below this are "Tehlikeli"; from here up to `SafeThreshold` "Şüpheli". */
  const DangerThreshold: int := 50
  const SafeThreshold: int := 80

  /** The words searched for, in the order they are reported. */
  const SuspiciousWords: seq<string> :=
    ["login", "giris", "verify", "onay", "bank", "account", "hesap", "update", "bonus"]

  const InsecureNote: string := "Güvensiz (HTTP) bağlantı."
  const IpNote: string := "IP adresi kullanılıyor."
  const LengthNote: string := "URL çok uzun."
  const KeywordNotePrefix: string := "Şüpheli kelimeler: "
  const CleanNote: string := "Temiz görünüyor."

  const Safe: string := "Güvenli"
  const Suspicious: string := "Şüpheli"
  const Dangerous: string := "Tehlikeli"

  // ---------------------------------------------------------------------
  // The dotted-quad address pattern of line 162
  // ---------------------------------------------------------------------

  predicate IsDigit(c: char) {
    '0' <= c <= '9'
  }

  /** Length of the run of digits at the front of `s`. */
  function DigitRun(s: string): (n: nat)
    ensures n <= |s|
    ensures forall k :: 0 <= k < n ==> IsDigit(s[k])
    ensures n < |s| ==> !IsDigit(s[n])
  {
    if s == [] || !IsDigit(s[0]) then 0 else 1 + DigitRun(s[1..])
  }

  /**
    The matcher: one to three digits, then `dots` more groups each made of
    a '.' and one to three digits, then the end. A digit group is always
    followed by '.' or the end, neither of which is a digit, so the group
    must take the whole run of digits and no backtracking is needed.
   */
  function MatchesOctets(s: string, dots: nat): bool
    decreases dots
  {
    var n := DigitRun(s);
    1 <= n <= 3
    && if dots == 0 then n == |s|
       else n < |s| && s[n] == '.' && MatchesOctets(s[n + 1..], dots - 1)
  }

  /**
    Line 162: the whole domain is four groups of one to three digits
    separated by dots. The pattern's `$` would also accept one final line
    feed after the last group; `MatchesOctets` demands the very end
    instead, which agrees because a normalised domain never contains a
    line feed (see the last `ensures` of `Url.Normalize`).
   */
  predicate IsDottedQuad(s: string) {
    MatchesOctets(s, 3)
  }

  /** One to three digits. */
  predicate IsOctet(t: string) {
    1 <= |t| <= 3 && forall k :: 0 <= k < |t| ==> IsDigit(t[k])
  }

  /** The language of the pattern: octets joined by `dots` dots. */
  ghost predicate OctetsShape(s: string, dots: nat)
    decreases dots
  {
    if dots == 0 then IsOctet(s)
    else exists k :: 0 < k < |s| && IsOctet(s[..k]) && s[k] == '.' && OctetsShape(s[k + 1..], dots - 1)
  }

  /** A digit run followed by a non-digit has exactly that length. */
  lemma DigitRunIs(s: string, k: nat)
    requires k <= |s|
    requires forall j :: 0 <= j < k ==> IsDigit(s[j])
    requires k == |s| || !IsDigit(s[k])
    ensures DigitRun(s) == k
  {
  }

  lemma {:induction false} MatchesOctetsIsShape(s: string, dots: nat)
    requires MatchesOctets(s, dots)
    ensures OctetsShape(s, dots)
    decreases dots
  {
    var n := DigitRun(s);
    assert IsOctet(s[..n]);
    if dots > 0 {
      MatchesOctetsIsShape(s[n + 1..], dots - 1);
    }
  }

  /** An octet followed by a dot is the whole leading digit run. */
  lemma OctetThenDotRun(s: string, k: nat)
    requires k < |s| && IsOctet(s[..k]) && s[k] == '.'
    ensures DigitRun(s) == k
  {
    forall j | 0 <= j < k
      ensures IsDigit(s[j])
    {
      assert s[..k][j] == s[j];
    }
    DigitRunIs(s, k);
  }

  /** An octet and a dot in front of a match with one dot fewer. */
  lemma MatchesOctetsStep(s: string, k: nat, dots: nat)
    requires 0 < dots
    requires k < |s| && IsOctet(s[..k]) && s[k] == '.'
    requires MatchesOctets(s[k + 1..], dots - 1)
    ensures MatchesOctets(s, dots)
  {
    OctetThenDotRun(s, k);
  }

  lemma {:induction false} ShapeMatchesOctets(s: string, dots: nat)
    requires OctetsShape(s, dots)
    ensures MatchesOctets(s, dots)
    decreases dots
  {
    if dots == 0 {
      DigitRunIs(s, |s|);
    } else {
      var k :| 0 < k < |s| && IsOctet(s[..k]) && s[k] == '.' && OctetsShape(s[k + 1..], dots - 1);
      ShapeMatchesOctets(s[k + 1..], dots - 1);
      MatchesOctetsStep(s, k, dots);
    }
  }

  /** The matcher accepts exactly the strings of the pattern's language. */
  lemma {:induction false} MatchesOctetsIffShape(s: string, dots: nat)
    ensures MatchesOctets(s, dots) <==> OctetsShape(s, dots)
  {
    if MatchesOctets(s, dots) {
      MatchesOctetsIsShape(s, dots);
    }
    if OctetsShape(s, dots) {
      ShapeMatchesOctets(s, dots);
    }
  }

  /** A lone octet matches with no dots. */
  lemma OctetMatches(a: string)
    requires IsOctet(a)
    ensures MatchesOctets(a, 0)
  {
    DigitRunIs(a, |a|);
  }

  /** An octet and a dot in front of a match make a match with one more dot. */
  lemma OctetThenDot(a: string, rest: string, dots: nat)
    requires IsOctet(a)
    requires MatchesOctets(rest, dots)
    ensures MatchesOctets(a + "." + rest, dots + 1)
  {
    var s := a + "." + rest;
    assert s[|a|] == '.';
    DigitRunIs(s, |a|);
    assert s[|a| + 1..] == rest;
  }

  /** Four octets joined by dots always match. */
  lemma OctetsAreDottedQuad(a: string, b: string, c: string, d: string)
    requires IsOctet(a) && IsOctet(b) && IsOctet(c) && IsOctet(d)
    ensures IsDottedQuad(a + "." + (b + "." + (c + "." + d)))
  {
    OctetMatches(d);
    OctetThenDot(c, d, 0);
    OctetThenDot(b, c + "." + d, 1);
    OctetThenDot(a, b + "." + (c + "." + d), 2);
  }

  /** A private-network address matches. */
  lemma PrivateAddressIsDottedQuad(s: string)
    requires s == "192.168.1.1"
    ensures IsDottedQuad(s)
  {
    DigitRunIs(s, 3);
    DigitRunIs(s[4..], 3);
    DigitRunIs(s[8..], 1);
    DigitRunIs(s[10..], 1);
  }

  /** A four-digit group is rejected. */
  lemma LongGroupIsNotDottedQuad()
    ensures !IsDottedQuad("1234.1.1.1")
  {
    DigitRunIs("1234.1.1.1", 4);
  }

  // ---------------------------------------------------------------------
  // Suspicious words
  // ---------------------------------------------------------------------

  /** `a` is `b` with some elements left out. */
  ghost predicate IsSubsequence<T>(a: seq<T>, b: seq<T>)
    decreases |b|
  {
    a == [] || (b != [] && ((a[0] == b[0] && IsSubsequence(a[1..], b[1..])) || IsSubsequence(a, b[1..])))
  }

  /** Line 171: the words that occur in the text, kept in list order. */
  function FoundWords(words: seq<string>, text: string): (found: seq<string>)
    ensures forall w :: w in found <==> w in words && IsSubstring(w, text)
    ensures IsSubsequence(found, words)
  {
    if words == [] then []
    else
      var rest := FoundWords(words[1..], text);
      if IsSubstring(words[0], text) then [words[0]] + rest else rest
  }

  /** No word is found when none occurs. */
  lemma {:induction false} NoneFound(words: seq<string>, text: string)
    requires forall i :: 0 <= i < |words| ==> !IsSubstring(words[i], text)
    ensures FoundWords(words, text) == []
  {
    if words != [] {
      NoneFound(words[1..], text);
    }
  }

  // ---------------------------------------------------------------------
  // The four checks
  // ---------------------------------------------------------------------

  predicate InsecureScheme(n: NormalizedUrl) {
    StartsWith(n.checkUrl, Http)
  }

  predicate UsesIpAddress(n: NormalizedUrl) {
    IsDottedQuad(n.domain)
  }

  predicate TooLong(n: NormalizedUrl) {
    |n.inputUrl| > MaxUrlLength
  }

  function SuspiciousFound(n: NormalizedUrl): seq<string> {
    FoundWords(SuspiciousWords, Lower(n.inputUrl))
  }

  /** A check that fired: the points it takes off and the note it leaves. */
  datatype Deduction = Deduction(points: int, note: string)

  function Fired(fires: bool, d: Deduction): seq<Deduction> {
    if fires then [d] else []
  }

  function HttpCheck(n: NormalizedUrl): seq<Deduction> {
    Fired(InsecureScheme(n), Deduction(HttpPenalty, InsecureNote))
  }

  function IpCheck(n: NormalizedUrl): seq<Deduction> {
    Fired(UsesIpAddress(n), Deduction(IpPenalty, IpNote))
  }

  function LengthCheck(n: NormalizedUrl): seq<Deduction> {
    Fired(TooLong(n), Deduction(LengthPenalty, LengthNote))
  }

  /** The note lists the words found, in list order, separated by ", ". */
  function KeywordNote(found: seq<string>): string {
    KeywordNotePrefix + Join(found, ", ")
  }

  function KeywordCheck(n: NormalizedUrl): seq<Deduction> {
    Fired(SuspiciousFound(n) != [], Deduction(KeywordPenalty, KeywordNote(SuspiciousFound(n))))
  }

  /** The checks that fire for `n`, in the order the scanner makes them. */
  function Deductions(n: NormalizedUrl): seq<Deduction> {
    HttpCheck(n) + IpCheck(n) + LengthCheck(n) + KeywordCheck(n)
  }

  function TotalPoints(ds: seq<Deduction>): int {
    if ds == [] then 0 else ds[0].points + TotalPoints(ds[1..])
  }

  function Notes(ds: seq<Deduction>): seq<string> {
    seq(|ds|, i requires 0 <= i < |ds| => ds[i].note)
  }

  lemma {:induction false} TotalPointsConcat(a: seq<Deduction>, b: seq<Deduction>)
    ensures TotalPoints(a + b) == TotalPoints(a) + TotalPoints(b)
    decreases |a|
  {
    if a == [] {
      assert a + b == b;
    } else {
      assert (a + b)[0] == a[0];
      assert (a + b)[1..] == a[1..] + b;
      TotalPointsConcat(a[1..], b);
    }
  }

  lemma NotesConcat(a: seq<Deduction>, b: seq<Deduction>)
    ensures Notes(a + b) == Notes(a) + Notes(b)
  {
  }

  lemma FiredParts(fires: bool, d: Deduction)
    ensures TotalPoints(Fired(fires, d)) == if fires then d.points else 0
    ensures Notes(Fired(fires, d)) == if fires then [d.note] else []
  {
    if fires {
      assert [d][1..] == [];
    }
  }

  /** The points and notes of all checks are those of each check, in order. */
  lemma DeductionsParts(n: NormalizedUrl)
    ensures TotalPoints(Deductions(n)) ==
      (if InsecureScheme(n) then HttpPenalty else 0) + (if UsesIpAddress(n) then IpPenalty else 0)
      + (if TooLong(n) then LengthPenalty else 0) + (if SuspiciousFound(n) != [] then KeywordPenalty else 0)
    ensures Notes(Deductions(n)) ==
      Notes(HttpCheck(n)) + Notes(IpCheck(n)) + Notes(LengthCheck(n)) + Notes(KeywordCheck(n))
    ensures |Deductions(n)| ==
      |HttpCheck(n)| + |IpCheck(n)| + |LengthCheck(n)| + |KeywordCheck(n)|
    ensures Notes(HttpCheck(n)) == if InsecureScheme(n) then [InsecureNote] else []
    ensures Notes(IpCheck(n)) == if UsesIpAddress(n) then [IpNote] else []
    ensures Notes(LengthCheck(n)) == if TooLong(n) then [LengthNote] else []
    ensures Notes(KeywordCheck(n)) == if SuspiciousFound(n) != [] then [KeywordNote(SuspiciousFound(n))] else []
  {
    var a, b, c, d := HttpCheck(n), IpCheck(n), LengthCheck(n), KeywordCheck(n);
    TotalPointsConcat(a, b);
    TotalPointsConcat(a + b, c);
    TotalPointsConcat(a + b + c, d);
    NotesConcat(a, b);
    NotesConcat(a + b, c);
    NotesConcat(a + b + c, d);
    FiredParts(InsecureScheme(n), Deduction(HttpPenalty, InsecureNote));
    FiredParts(UsesIpAddress(n), Deduction(IpPenalty, IpNote));
    FiredParts(TooLong(n), Deduction(LengthPenalty, LengthNote));
    FiredParts(SuspiciousFound(n) != [], Deduction(KeywordPenalty, KeywordNote(SuspiciousFound(n))));
  }

  // ---------------------------------------------------------------------
  // Score, risk level and details
  // ---------------------------------------------------------------------

  /** Line 176: the score forced into 0..100. */
  function Clamp(x: int): (r: int)
    ensures 0 <= r <= 100
    ensures 0 <= x <= 100 ==> r == x
    ensures x < 0 ==> r == 0
    ensures x > 100 ==> r == 100
  {
    if x < 0 then 0 else if x > 100 then 100 else x
  }

  /** Lines 177-181: the bucket a final score falls into. */
  function RiskLevel(score: int): (level: string)
    ensures level == Dangerous <==> score < DangerThreshold
    ensures level == Suspicious <==> DangerThreshold <= score < SafeThreshold
    ensures level == Safe <==> SafeThreshold <= score
  {
    if score < DangerThreshold then Dangerous
    else if score < SafeThreshold then Suspicious
    else Safe
  }

  datatype Assessment = Assessment(score: int, riskLevel: string, details: seq<string>)

  /**
    Lines 155-183 as written: a running score and note list, then clamping,
    bucketing and the "clean" note when nothing fired. The result is 90
    minus the points of the checks that fired, clamped, with their notes in
    check order.
   */
  function Assess(n: NormalizedUrl): (a: Assessment)
    ensures 0 <= a.score <= BaseScore
    ensures a.score == Clamp(BaseScore - TotalPoints(Deductions(n)))
    ensures a.details == if Deductions(n) == [] then [CleanNote] else Notes(Deductions(n))
    ensures a.riskLevel == RiskLevel(a.score)
  {
    var found := SuspiciousFound(n);
    var s1 := BaseScore - (if InsecureScheme(n) then HttpPenalty else 0);
    var r1 := if InsecureScheme(n) then [InsecureNote] else [];
    var s2 := s1 - (if UsesIpAddress(n) then IpPenalty else 0);
    var r2 := r1 + (if UsesIpAddress(n) then [IpNote] else []);
    var s3 := s2 - (if TooLong(n) then LengthPenalty else 0);
    var r3 := r2 + (if TooLong(n) then [LengthNote] else []);
    var s4 := s3 - (if found != [] then KeywordPenalty else 0);
    var r4 := r3 + (if found != [] then [KeywordNote(found)] else []);
    var finalScore := Clamp(s4);
    DeductionsParts(n);
    Assessment(finalScore, RiskLevel(finalScore), if r4 == [] then [CleanNote] else r4)
  }

  /** The four notes and the clean note are pairwise different. */
  lemma NotesDistinct(found: seq<string>)
    ensures InsecureNote != IpNote && InsecureNote != LengthNote && IpNote != LengthNote
    ensures KeywordNote(found) !in [InsecureNote, IpNote, LengthNote, CleanNote]
    ensures CleanNote !in [InsecureNote, IpNote, LengthNote]
  {
    assert KeywordNote(found)[0] == 'Ş';
  }

  /** The full score of 90 is kept exactly when no check fires, which is when the only note is the clean one. */
  lemma FullScoreIffClean(n: NormalizedUrl)
    ensures Assess(n).score == BaseScore <==> Deductions(n) == []
    ensures Assess(n).details == [CleanNote] <==> Deductions(n) == []
  {
    DeductionsParts(n);
    NotesDistinct(SuspiciousFound(n));
  }

  /**
    Clamping only matters when all four checks fire (90 - 95 = -5): then
    the score is 0; otherwise it is 90 minus the points taken off.
   */
  lemma ClampOnlyWhenAllFire(n: NormalizedUrl)
    ensures |Deductions(n)| == 4 <==> Assess(n).score == 0
    ensures |Deductions(n)| < 4 ==> Assess(n).score == BaseScore - TotalPoints(Deductions(n))
  {
    DeductionsParts(n);
  }

  /** Which notes a list of fired checks holds: each note exactly when its check is in the list. */
  lemma NotesOfFired(a: bool, b: bool, c: bool, d: bool, k: string)
    requires k != InsecureNote && k != IpNote && k != LengthNote
    ensures var notes := (if a then [InsecureNote] else []) + (if b then [IpNote] else [])
                         + (if c then [LengthNote] else []) + (if d then [k] else []);
      && (InsecureNote in notes <==> a)
      && (IpNote in notes <==> b)
      && (LengthNote in notes <==> c)
  {
    NotesDistinct([]);
  }

  /** Each of the first three notes appears exactly when its check fires. */
  lemma NotesMatchChecks(n: NormalizedUrl)
    ensures InsecureNote in Assess(n).details <==> InsecureScheme(n)
    ensures IpNote in Assess(n).details <==> UsesIpAddress(n)
    ensures LengthNote in Assess(n).details <==> TooLong(n)
  {
    DeductionsParts(n);
    var found := SuspiciousFound(n);
    NotesDistinct(found);
    NotesOfFired(InsecureScheme(n), UsesIpAddress(n), TooLong(n), found != [], KeywordNote(found));
  }

  /** The keyword note appears exactly when some suspicious word occurs in the lower-cased input. */
  lemma KeywordNoteIff(n: NormalizedUrl)
    ensures KeywordNote(SuspiciousFound(n)) in Assess(n).details
      <==> exists w :: w in SuspiciousWords && IsSubstring(w, Lower(n.inputUrl))
  {
    DeductionsParts(n);
    NotesDistinct(SuspiciousFound(n));
    var found := SuspiciousFound(n);
    if exists w :: w in SuspiciousWords && IsSubstring(w, Lower(n.inputUrl)) {
      var w :| w in SuspiciousWords && IsSubstring(w, Lower(n.inputUrl));
      assert w in found;
    }
    if found != [] {
      assert found[0] in found;
    }
  }

  // ---------------------------------------------------------------------
  // Worked examples
  // ---------------------------------------------------------------------

  lemma IpLoginWords(s: string)
    requires s == "http://192.168.1.1/login"
    ensures FoundWords(SuspiciousWords, s) == ["login"]
  {
    assert OccursAt("login", s, 19);
    IpLoginLacksEarlyWords(s);
    IpLoginLacksLateWords(s);
    NoneFound(SuspiciousWords[1..], s);
  }

  /** With an insecure scheme, an IP address and one suspicious word, 90 - 25 - 40 - 20 leaves 5. */
  lemma ThreeChecksLeaveFive(n: NormalizedUrl)
    requires InsecureScheme(n) && UsesIpAddress(n) && !TooLong(n) && SuspiciousFound(n) == ["login"]
    ensures Assess(n).score == 5 && Assess(n).riskLevel == Dangerous
    ensures Assess(n).details == [InsecureNote, IpNote, KeywordNote(["login"])]
  {
    DeductionsParts(n);
  }

  lemma IpLoginIsLower(s: string)
    requires s == "http://192.168.1.1/login"
    ensures Lower(s) == s
  {
    LowerIdempotent(s);
  }

  lemma IpLoginKeywords(n: NormalizedUrl)
    requires n.inputUrl == "http://192.168.1.1/login"
    ensures SuspiciousFound(n) == ["login"]
  {
    IpLoginIsLower(n.inputUrl);
    IpLoginWords(n.inputUrl);
  }

  lemma IpLoginUsesIp(n: NormalizedUrl)
    requires n.domain == "192.168.1.1"
    ensures UsesIpAddress(n)
  {
    PrivateAddressIsDottedQuad(n.domain);
  }

  lemma IpLoginIsInsecure(n: NormalizedUrl)
    requires n.checkUrl == "http://192.168.1.1/login"
    ensures InsecureScheme(n)
  {
  }

  /** "http://192.168.1.1/login" scores 5, "Tehlikeli", with three notes. */
  lemma InsecureIpLoginAssessment(n: NormalizedUrl)
    requires n.inputUrl == "http://192.168.1.1/login" && n.checkUrl == n.inputUrl
    requires n.domain == "192.168.1.1"
    ensures Assess(n).score == 5 && Assess(n).riskLevel == Dangerous
    ensures Assess(n).details == [InsecureNote, IpNote, KeywordNote(["login"])]
  {
    IpLoginIsInsecure(n);
    IpLoginUsesIp(n);
    IpLoginKeywords(n);
    ThreeChecksLeaveFive(n);
  }

  /** `t` cannot occur in `s` if it does not start there and its character `c` appears only at the head of `s`. */
  lemma NotSubstringPastHead(t: string, s: string, c: char)
    requires s != [] && !OccursAt(t, s, 0)
    requires c in t && c !in s[1..]
    ensures !IsSubstring(t, s)
  {
    var i :| 0 <= i < |t| && t[i] == c;
    forall k | 1 <= k <= |s| - |t|
      ensures !OccursAt(t, s, k)
    {
      assert s[k + i] == s[1..][k + i - 1];
      assert s[k..k + |t|][i] != t[i];
    }
  }

  /** The characters of "https://example.com": 'h' only at the head. */
  lemma ExampleComChars(s: string)
    requires s == "https://example.com"
    ensures s[0] == 'h'
    ensures forall i :: 1 <= i < |s| ==>
      s[i] in {'t', 'p', 's', ':', '/', 'e', 'x', 'a', 'm', 'l', 'c', 'o', '.'}
  {
  }

  /** No suspicious word occurs in "https://example.com". */
  lemma ExampleComLacksEarlyWords(s: string)
    requires s == "https://example.com"
    ensures forall i :: 0 <= i < 5 ==> !IsSubstring(SuspiciousWords[i], s)
  {
    ExampleComChars(s);
    var words := SuspiciousWords;
    MissingCharNotSubstring(words[0], s, 'g');
    MissingCharNotSubstring(words[1], s, 'g');
    MissingCharNotSubstring(words[2], s, 'v');
    MissingCharNotSubstring(words[3], s, 'n');
    MissingCharNotSubstring(words[4], s, 'b');
  }

  lemma ExampleComLacksLateWords(s: string)
    requires s == "https://example.com"
    ensures forall i :: 5 <= i < 9 ==> !IsSubstring(SuspiciousWords[i], s)
  {
    ExampleComChars(s);
    var words := SuspiciousWords;
    MissingCharNotSubstring(words[5], s, 'u');
    assert s[..|words[6]|][1] != words[6][1];
    assert 'h' !in s[1..];
    NotSubstringPastHead(words[6], s, 'h');
    MissingCharNotSubstring(words[7], s, 'u');
    MissingCharNotSubstring(words[8], s, 'b');
  }

  lemma ExampleComIsLower(s: string)
    requires s == "https://example.com"
    ensures Lower(s) == s
  {
    LowerIdempotent(s);
  }

  lemma ExampleComKeywords(n: NormalizedUrl)
    requires n.inputUrl == "https://example.com"
    ensures SuspiciousFound(n) == []
  {
    ExampleComIsLower(n.inputUrl);
    ExampleComLacksEarlyWords(n.inputUrl);
    ExampleComLacksLateWords(n.inputUrl);
    NoneFound(SuspiciousWords, n.inputUrl);
  }

  /** "https://example.com" keeps the full 90, "Güvenli", with the clean note only. */
  lemma CleanHttpsAssessment(n: NormalizedUrl)
    requires n.inputUrl == "https://example.com" && n.checkUrl == n.inputUrl
    requires n.domain == "example.com"
    ensures Assess(n).score == BaseScore && Assess(n).riskLevel == Safe
    ensures Assess(n).details == [CleanNote]
  {
    assert n.checkUrl[4] != Http[4];
    DigitRunIs(n.domain, 0);
    ExampleComKeywords(n);
    FullScoreIffClean(n);
  }

  // ---------------------------------------------------------------------
  // Proof plumbing for the worked examples. The word list is checked
  // against the example in two halves so that each proof stays within the
  // solver's budget; these lemmas state nothing about the scanner on
  // their own.
  // ---------------------------------------------------------------------

  /** The characters of the insecure IP example. */
  lemma IpLoginChars(s: string)
    requires s == "http://192.168.1.1/login"
    ensures forall i :: 0 <= i < |s| ==>
      s[i] in {'h', 't', 'p', ':', '/', '1', '9', '2', '.', '6', '8', 'l', 'o', 'g', 'i', 'n'}
  {
  }

  /** Apart from "login", no suspicious word occurs in the insecure IP example. */
  lemma IpLoginLacksEarlyWords(s: string)
    requires s == "http://192.168.1.1/login"
    ensures forall i :: 1 <= i < 5 ==> !IsSubstring(SuspiciousWords[i], s)
  {
    IpLoginChars(s);
    var words := SuspiciousWords;
    MissingCharNotSubstring(words[1], s, 'r');
    MissingCharNotSubstring(words[2], s, 'v');
    MissingCharNotSubstring(words[3], s, 'a');
    MissingCharNotSubstring(words[4], s, 'b');
  }

  /** No suspicious word after "onay" occurs in the insecure IP example. */
  lemma IpLoginLacksLateWords(s: string)
    requires s == "http://192.168.1.1/login"
    ensures forall i :: 5 <= i < 9 ==> !IsSubstring(SuspiciousWords[i], s)
  {
    IpLoginChars(s);
    var words := SuspiciousWords;
    MissingCharNotSubstring(words[5], s, 'a');
    MissingCharNotSubstring(words[6], s, 'e');
    MissingCharNotSubstring(words[7], s, 'u');
    MissingCharNotSubstring(words[8], s, 'b');
  }
}

=== FILE: options.dfy ===
/** The Some/None datatype used wherever the scanner may or may not find something. */
module Options {

  datatype Option<+T> = None | Some(value: T)

}

=== FILE: phishtank.dfy ===
/**
  The blocklist built once at start-up from the PhishTank feed file
  (app/scanner.py:15-25). Each entry's `url` is cleaned exactly like the
  scanner's `raw_domain` (`Url.CleanEntry`). Everything runs inside one
  `try`: a missing or unparsable file leaves the set empty, and the first
  entry that is not an object with a string `url` aborts the loop, keeping
  the domains added before it.
 */
module PhishTank {
  import opened Options
  import opened Url

  /** One element of the feed's JSON array. */
  datatype FeedEntry =
    | Entry(url: string)   // an object whose `url` is a string
    | Malformed            // anything on which `entry['url'].replace(...)` raises

  /** How many entries load before the first malformed one. */
  function LoadablePrefix(feed: seq<FeedEntry>): (n: nat)
    ensures n <= |feed|
    ensures forall j :: 0 <= j < n ==> feed[j].Entry?
    ensures n < |feed| ==> feed[n].Malformed?
  {
    if feed == [] || feed[0].Malformed? then 0 else 1 + LoadablePrefix(feed[1..])
  }

  /** `db` holds exactly the cleaned urls of the entries that load before the first malformed one. */
  ghost predicate LoadedFrom(db: set<string>, feed: seq<FeedEntry>) {
    forall d :: d in db <==> exists j :: 0 <= j < LoadablePrefix(feed) && CleanEntry(feed[j].url) == d
  }

  /**
    `PHISHTANK_DB` after start-up. `file` is the parsed feed, or None when
    the file is absent or is not valid JSON.
   */
  method Load(file: Option<seq<FeedEntry>>) returns (db: set<string>)
    ensures file.None? ==> db == {}
    ensures file.Some? ==> LoadedFrom(db, file.value)
  {
    db := {};
    if file.Some? {
      var feed := file.value;
      var i := 0;
      while i < |feed|
        invariant i <= LoadablePrefix(feed)
        invariant forall d :: d in db <==> exists j :: 0 <= j < i && CleanEntry(feed[j].url) == d
      {
        if feed[i].Malformed? {
          break;
        }
        db := db + {CleanEntry(feed[i].url)};
        i := i + 1;
      }
    }
  }

}

=== FILE: repository.dfy ===
/**
  The internal database of reported sites, as the scanner queries it
  (app/scanner.py:93-110). The database itself is not modelled: a scan
  sees the stored records in the order the database returns them, and the
  rows of the `url LIKE %input%` ("contains") query in the order the
  database returns those. `.first()` is the first record in that order and
  `.limit(5)` the first five rows.
 */
module Repository {
  import opened Options
  import opened Text

  /** A stored report: the `PhishingURL` row's `phish_id`, `url` and `target`. */
  datatype Record = Record(phishId: string, url: string, target: string)

  /** What the database answers during one scan. */
  datatype Repository = Repository(records: seq<Record>, containsRows: seq<Record>)

  /** `.limit(5)` on the "contains" query. */
  const PartialSearchLimit: nat := 5

  /** Inputs of at most this many characters never use the "contains" query. */
  const MinPartialLength: nat := 6

  /** The first `n` elements, or all of them when there are fewer. */
  function Take<T>(s: seq<T>, n: nat): (r: seq<T>)
    ensures |r| <= n && |r| <= |s| && r == s[..|r|]
    ensures |s| <= n ==> r == s
    ensures n <= |s| ==> |r| == n
  {
    if |s| <= n then s else s[..n]
  }

  /** Position of the first record whose url equals `url`, or |records|. */
  function FirstExactIndex(records: seq<Record>, url: string): (i: nat)
    ensures i <= |records|
    ensures forall j :: 0 <= j < i ==> records[j].url != url
    ensures i < |records| ==> records[i].url == url
  {
    if records == [] || records[0].url == url then 0
    else 1 + FirstExactIndex(records[1..], url)
  }

  /** Line 99: the first stored record whose url is the input, if any. */
  function ExactMatch(records: seq<Record>, url: string): Option<Record> {
    var i := FirstExactIndex(records, url);
    if i < |records| then Some(records[i]) else None
  }

  /** The acceptance test of line 108: the same URL, or a stored URL the input extends. */
  predicate Accepts(row: Record, url: string) {
    row.url == url || StartsWith(url, row.url)
  }

  /** Position of the first accepted row, or |rows|. */
  function FirstAcceptedIndex(rows: seq<Record>, url: string): (i: nat)
    ensures i <= |rows|
    ensures forall j :: 0 <= j < i ==> !Accepts(rows[j], url)
    ensures i < |rows| ==> Accepts(rows[i], url)
  {
    if rows == [] || Accepts(rows[0], url) then 0
    else 1 + FirstAcceptedIndex(rows[1..], url)
  }

  /** The `for pm in potential_matches` loop over the at most five "contains" rows. */
  function PartialMatch(containsRows: seq<Record>, url: string): Option<Record> {
    var rows := Take(containsRows, PartialSearchLimit);
    var i := FirstAcceptedIndex(rows, url);
    if i < |rows| then Some(rows[i]) else None
  }

  /** Whether the "contains" query is issued: no exact match and a long enough input. */
  predicate UsesPartialSearch(repo: Repository, url: string) {
    ExactMatch(repo.records, url).None? && |url| > MinPartialLength
  }

  /**
    Lines 99-110: the record reported for `url`. An exact match wins and is
    the first such record; otherwise, for inputs longer than six
    characters, the first of the first five "contains" rows that equals the
    input or is a prefix of it.
   */
  function Lookup(repo: Repository, url: string): (m: Option<Record>)
    ensures m.Some? <==>
      (exists j :: 0 <= j < |repo.records| && repo.records[j].url == url)
      || (|url| > MinPartialLength
          && exists j :: 0 <= j < |repo.containsRows| && j < PartialSearchLimit && Accepts(repo.containsRows[j], url))
    ensures (exists j :: 0 <= j < |repo.records| && repo.records[j].url == url) ==>
      m.Some? && m.value.url == url
      && (exists j :: 0 <= j < |repo.records| && repo.records[j] == m.value
            && forall i :: 0 <= i < j ==> repo.records[i].url != url)
    ensures m.Some? && m.value.url != url ==>
      |url| > MinPartialLength && StartsWith(url, m.value.url)
      && (exists j :: 0 <= j < |repo.containsRows| && j < PartialSearchLimit && repo.containsRows[j] == m.value)
    ensures (forall j :: 0 <= j < |repo.records| ==> repo.records[j].url != url) && m.Some? ==>
      exists j :: 0 <= j < |repo.containsRows| && j < PartialSearchLimit
        && repo.containsRows[j] == m.value && Accepts(m.value, url)
        && forall i :: 0 <= i < j ==> !Accepts(repo.containsRows[i], url)
  {
    var exact := ExactMatch(repo.records, url);
    if exact.Some? then exact
    else if |url| > MinPartialLength then
      var rows := Take(repo.containsRows, PartialSearchLimit);
      var i := FirstAcceptedIndex(rows, url);
      assert forall k :: 0 <= k < |rows| ==> rows[k] == repo.containsRows[k];
      PartialMatch(repo.containsRows, url)
    else None
  }

  /** Inputs of six characters or fewer are matched only exactly. */
  lemma ShortInputMatchesOnlyExactly(repo: Repository, url: string)
    requires |url| <= MinPartialLength
    ensures !UsesPartialSearch(repo, url)
    ensures Lookup(repo, url).Some? ==> Lookup(repo, url).value.url == url
  {
  }

  /**
    When every "contains" row really contains the input, the prefix test
    can accept only a row whose url is the input itself: being a prefix of
    the input and containing it forces equal length.
   */
  lemma ContainedRowAcceptedOnlyIfEqual(row: Record, url: string)
    requires IsSubstring(url, row.url)
    ensures Accepts(row, url) <==> row.url == url
  {
    var k :| 0 <= k <= |row.url| - |url| && OccursAt(url, row.url, k);
  }

  /**
    Consequently, if the "contains" rows are records of the database that
    contain the input, the partial search adds nothing to the exact query:
    a stored URL of which the input is a sub-page is never reported.
   */
  lemma {:induction false} HonestContainsRowsAddNothing(repo: Repository, url: string)
    requires forall j :: 0 <= j < |repo.containsRows| ==> repo.containsRows[j] in repo.records
    requires forall j :: 0 <= j < |repo.containsRows| ==> IsSubstring(url, repo.containsRows[j].url)
    ensures Lookup(repo, url) == ExactMatch(repo.records, url)
  {
    if ExactMatch(repo.records, url).None? {
      var rows := Take(repo.containsRows, PartialSearchLimit);
      forall j | 0 <= j < |rows|
        ensures !Accepts(rows[j], url)
      {
        ContainedRowAcceptedOnlyIfEqual(rows[j], url);
      }
    }
  }

  // ---------------------------------------------------------------------
  // The sub-page search as evidently intended
  // ---------------------------------------------------------------------

  /**
    As written, the partial search misses a sub-page of a reported site:
    with "evil.com" stored and "evil.com/login" typed, no stored url
    contains the input, so the "contains" query answers nothing and no
    record is reported, although the input extends a stored url.
   */
  lemma SubPageMissedAsWritten(repo: Repository, url: string)
    requires repo == Repository([Record("1", "evil.com", "bank")], [])
    requires url == "evil.com/login"
    ensures !IsSubstring(url, repo.records[0].url)
    ensures StartsWith(url, repo.records[0].url)
    ensures Lookup(repo, url).None?
  {
    assert repo.records[0].url != url;
  }

  /**
    The lookup the prefix test of line 108 describes: an exact match first,
    and otherwise, for inputs longer than six characters, the first stored
    record that the input equals or extends.
   */
  function IntendedLookup(repo: Repository, url: string): (m: Option<Record>)
    ensures m.Some? <==>
      (exists j :: 0 <= j < |repo.records| && repo.records[j].url == url)
      || (|url| > MinPartialLength && exists j :: 0 <= j < |repo.records| && Accepts(repo.records[j], url))
    ensures m.Some? ==> m.value in repo.records && Accepts(m.value, url)
  {
    var exact := ExactMatch(repo.records, url);
    if exact.Some? then exact
    else if |url| > MinPartialLength then
      var i := FirstAcceptedIndex(repo.records, url);
      if i < |repo.records| then Some(repo.records[i]) else None
    else None
  }

  /** The intended lookup reports the sub-page the written one misses. */
  lemma SubPageFoundAsIntended(repo: Repository, url: string)
    requires repo == Repository([Record("1", "evil.com", "bank")], [])
    requires url == "evil.com/login"
    ensures IntendedLookup(repo, url) == Some(repo.records[0])
  {
    assert Accepts(repo.records[0], url);
  }

  // ---------------------------------------------------------------------
  // The sub-page search as the comment of line 107 reads
  // ---------------------------------------------------------------------

  /**
    The comment of line 107 asks the opposite question to line 108: is the
    found row the input itself, or a sub-page of the input? A row passes
    when its url starts with the input.
   */
  predicate ExtendsInput(row: Record, url: string) {
    StartsWith(row.url, url)
  }

  /** Position of the first row that is the input or a sub-page of it, or |rows|. */
  function FirstExtendingIndex(rows: seq<Record>, url: string): (i: nat)
    ensures i <= |rows|
    ensures forall j :: 0 <= j < i ==> !ExtendsInput(rows[j], url)
    ensures i < |rows| ==> ExtendsInput(rows[i], url)
  {
    if rows == [] || ExtendsInput(rows[0], url) then 0
    else 1 + FirstExtendingIndex(rows[1..], url)
  }

  /**
    The lookup under the reading of line 107: the same queries as lines
    99-105, but the loop keeps the first of the five "contains" rows that
    is the input or a sub-page of it.
   */
  function SubPageOfInputLookup(repo: Repository, url: string): (m: Option<Record>)
    ensures m.Some? <==>
      (exists j :: 0 <= j < |repo.records| && repo.records[j].url == url)
      || (|url| > MinPartialLength
          && exists j :: 0 <= j < |repo.containsRows| && j < PartialSearchLimit && ExtendsInput(repo.containsRows[j], url))
    ensures (exists j :: 0 <= j < |repo.records| && repo.records[j].url == url) ==>
      m.Some? && m.value.url == url
    ensures (forall j :: 0 <= j < |repo.records| ==> repo.records[j].url != url) && m.Some? ==>
      exists j :: 0 <= j < |repo.containsRows| && j < PartialSearchLimit
        && repo.containsRows[j] == m.value && ExtendsInput(m.value, url)
        && forall i :: 0 <= i < j ==> !ExtendsInput(repo.containsRows[i], url)
  {
    var exact := ExactMatch(repo.records, url);
    if exact.Some? then exact
    else if |url| > MinPartialLength then
      var rows := Take(repo.containsRows, PartialSearchLimit);
      var i := FirstExtendingIndex(rows, url);
      assert forall k :: 0 <= k < |rows| ==> rows[k] == repo.containsRows[k];
      if i < |rows| then Some(rows[i]) else None
    else None
  }

  /**
    As written, a stored sub-page of the input is rejected: with
    "evil.com/login" stored and "evil.com" typed, the "contains" query
    honestly returns that record, but the input does not extend it.
   */
  lemma StoredSubPageMissedAsWritten(repo: Repository, url: string)
    requires repo == Repository([Record("1", "evil.com/login", "bank")], [Record("1", "evil.com/login", "bank")])
    requires url == "evil.com"
    ensures IsSubstring(url, repo.containsRows[0].url)
    ensures ExtendsInput(repo.containsRows[0], url)
    ensures Lookup(repo, url).None?
  {
    assert OccursAt(url, repo.containsRows[0].url, 0);
    assert repo.records[0].url != url;
  }

  /** Under the reading of line 107, the same input reports the stored sub-page. */
  lemma StoredSubPageFoundAsIntended(repo: Repository, url: string)
    requires repo == Repository([Record("1", "evil.com/login", "bank")], [Record("1", "evil.com/login", "bank")])
    requires url == "evil.com"
    ensures SubPageOfInputLookup(repo, url) == Some(repo.records[0])
  {
    assert repo.records[0].url != url;
    assert ExtendsInput(repo.containsRows[0], url);
  }

}

=== FILE: scanner.dfy ===
/**
  `calculate_safety_score` (app/scanner.py:31-188): normalise the input,
  then consult the evidence sources in a fixed order and answer with the
  first one that decides. The order is the whitelist, the internal
  database, the PhishTank blocklist, a reachability probe and finally the
  rule-based score.

  The database, the blocklist and the probe's answer are parameters
  (`Env`), so a scan is a pure function. Besides the verdict, a scan
  reports the trail of sources it consulted, so that "the database is
  never queried" or "no request is sent" can be stated.
 */
module Scanner {
  import opened Options
  import opened Text
  import opened Url
  import opened Whitelist
  import opened Repository
  import opened PhishTank
  import opened Heuristic

  /** One entry of the `sources` list: which source decided and what it said. */
  datatype Source = Source(name: string, status: string)

  /** The dictionary the scanner returns. */
  datatype Verdict = Verdict(
    url: string,
    score: int,
    riskLevel: string,
    details: seq<string>,
    sources: seq<Source>
  )

  /** The outcome of `requests.get(check_url, timeout=3)`. */
  datatype Probe =
    | Responded(status: int)   // an HTTP response with this status code
    | Failed                   // any exception: DNS failure, refused connection, timeout, ...

  /** Line 141: a site is up when it answers with a status code below 400. */
  predicate IsUp(p: Probe) {
    p.Responded? && p.status < 400
  }

  /**
    Everything a scan depends on besides its input: the database session
    (if any) with what it answers, the loaded blocklist, and the answer
    the probe gets for this scan's `check_url`.
   */
  datatype Env = Env(db: Option<Repository>, phishTank: set<string>, probe: Probe)

  /** The sources a scan can consult, in the order it consults them. */
  datatype Stage =
    | WhitelistCheck
    | DbExactQuery
    | DbContainsQuery
    | PhishTankCheck
    | Reachability
    | Scoring

  datatype Outcome = Outcome(verdict: Verdict, trail: seq<Stage>)

  const TrustedScore: int := 100
  const ThreatScore: int := 0

  const TrustedLevel: string := "Güvenli (Doğrulanmış)"
  const ReportedLevel: string := "ÇOK TEHLİKELİ (DB Kayıtlı)"
  const BlocklistedLevel: string := "ÇOK TEHLİKELİ"
  const UnreachableLevel: string := "Siteye Ulaşılamıyor"

  const ThreatStatus: string := "TEHDİT 🚨"

  /** Lines 83-88. */
  function Trusted(url: string): Verdict {
    Verdict(url, TrustedScore, TrustedLevel,
      ["Güvenilir Siteler Listesinde (Whitelist) mevcut.", "Resmi Kurum."],
      [Source("Whitelist", "Temiz")])
  }

  /** Lines 112-123: the database record is quoted in the details. */
  function Reported(url: string, r: Record): Verdict {
    Verdict(url, ThreatScore, ReportedLevel,
      ["Bu site veritabanınızda tespit edildi! (ID: " + r.phishId + ")",
       "Hedef: " + r.target,
       "Veritabanı eşleşmesi sağlandı."],
      [Source("INTERNAL DB", ThreatStatus)])
  }

  /** Lines 129-133. */
  function Blocklisted(url: string): Verdict {
    Verdict(url, ThreatScore, BlocklistedLevel,
      ["Bu site global kara listede (PhishTank) mevcut!", "Veri girmeyiniz."],
      [Source("PhishTank", ThreatStatus)])
  }

  /** Lines 145-150. */
  function Unreachable(url: string): Verdict {
    Verdict(url, ThreatScore, UnreachableLevel,
      ["Böyle bir site bulunamadı veya sunucusu kapalı."],
      [Source("Ping", "Başarısız ❌")])
  }

  /** Lines 185-188. */
  function Scored(url: string, a: Assessment): Verdict {
    Verdict(url, a.score, a.riskLevel, a.details, [Source("AI Analiz", "Tamamlandı")])
  }

  /** The queries the database receives when it is present: the exact one, then possibly the "contains" one. */
  function DbTrail(db: Option<Repository>, url: string): seq<Stage> {
    if db.None? then []
    else [DbExactQuery] + (if UsesPartialSearch(db.value, url) then [DbContainsQuery] else [])
  }

  /** The record the database reports for `url`; None without a database. */
  function DbMatch(db: Option<Repository>, url: string): Option<Record> {
    if db.None? then None else Lookup(db.value, url)
  }

  /** Which evidence source decides a scan. */
  datatype Decision =
    | ByWhitelist
    | ByDatabase(record: Record)
    | ByBlocklist
    | ByProbe
    | ByScore

  /** Lines 72-150: the first source, in scanning order, that decides. */
  function Deciding(n: NormalizedUrl, env: Env): Decision {
    if IsWhitelisted(n.rawDomain, n.domain) then ByWhitelist
    else
      match DbMatch(env.db, n.inputUrl)
      case Some(r) => ByDatabase(r)
      case None =>
        if n.domain in env.phishTank then ByBlocklist
        else if !IsUp(env.probe) then ByProbe
        else ByScore
  }

  /** The sources consulted up to and including the deciding one. */
  function Trail(d: Decision, dbQueries: seq<Stage>): seq<Stage> {
    match d
    case ByWhitelist => [WhitelistCheck]
    case ByDatabase(_) => [WhitelistCheck] + dbQueries
    case ByBlocklist => [WhitelistCheck] + dbQueries + [PhishTankCheck]
    case ByProbe => [WhitelistCheck] + dbQueries + [PhishTankCheck, Reachability]
    case ByScore => [WhitelistCheck] + dbQueries + [PhishTankCheck, Reachability, Scoring]
  }

  /** The dictionary returned once `d` has decided. */
  function VerdictOf(d: Decision, n: NormalizedUrl): Verdict {
    match d
    case ByWhitelist => Trusted(n.inputUrl)
    case ByDatabase(r) => Reported(n.inputUrl, r)
    case ByBlocklist => Blocklisted(n.inputUrl)
    case ByProbe => Unreachable(n.inputUrl)
    case ByScore => Scored(n.inputUrl, Assess(n))
  }

  /** Lines 52-188 for an input already normalised to `n`. */
  function Decide(n: NormalizedUrl, env: Env): Outcome {
    var d := Deciding(n, env);
    Outcome(VerdictOf(d, n), Trail(d, DbTrail(env.db, n.inputUrl)))
  }

  /** `calculate_safety_score(raw, db)`: normalise (lines 33-46), then decide. */
  function Scan(raw: string, env: Env): Outcome {
    Decide(Normalize(raw), env)
  }

  // ---------------------------------------------------------------------
  // The shape of every answer
  // ---------------------------------------------------------------------

  /** Every trail starts with the whitelist. */
  lemma TrailStartsWithWhitelist(d: Decision, dbQueries: seq<Stage>)
    ensures |Trail(d, dbQueries)| > 0 && Trail(d, dbQueries)[0] == WhitelistCheck
  {
  }

  /** Every verdict echoes the normalised input. */
  lemma VerdictOfEchoesInput(d: Decision, n: NormalizedUrl)
    ensures VerdictOf(d, n).url == n.inputUrl
  {
  }

  /** Every verdict names one source. */
  lemma VerdictOfOneSource(d: Decision, n: NormalizedUrl)
    ensures |VerdictOf(d, n).sources| == 1
  {
  }

  /** Every answer echoes the normalised input and names exactly one source; the whitelist is always consulted first. */
  lemma VerdictShape(n: NormalizedUrl, env: Env)
    ensures Decide(n, env).verdict.url == n.inputUrl
    ensures |Decide(n, env).verdict.sources| == 1
    ensures Decide(n, env).trail[0] == WhitelistCheck
  {
    VerdictOfEchoesInput(Deciding(n, env), n);
    VerdictOfOneSource(Deciding(n, env), n);
    TrailStartsWithWhitelist(Deciding(n, env), DbTrail(env.db, n.inputUrl));
  }

  /** The score of each kind of decision: 100 for the whitelist only. */
  lemma ScoreOf(d: Decision, n: NormalizedUrl)
    ensures 0 <= VerdictOf(d, n).score <= 100
    ensures VerdictOf(d, n).score == 100 <==> d.ByWhitelist?
  {
  }

  /** Scores stay in 0..100, and the full 100 is given exactly to trusted sites. */
  lemma ScoreRange(n: NormalizedUrl, env: Env)
    ensures 0 <= Decide(n, env).verdict.score <= 100
    ensures Decide(n, env).verdict.score == 100 <==> IsWhitelisted(n.rawDomain, n.domain)
  {
    ScoreOf(Deciding(n, env), n);
  }

  /** The risk levels of the five outcomes never coincide. */
  lemma LevelsDistinct(n: NormalizedUrl)
    ensures Assess(n).riskLevel !in [TrustedLevel, ReportedLevel, BlocklistedLevel, UnreachableLevel]
    ensures ReportedLevel != BlocklistedLevel && ReportedLevel != UnreachableLevel
    ensures BlocklistedLevel != UnreachableLevel
  {
    assert BlocklistedLevel != ReportedLevel by {
      assert |BlocklistedLevel| != |ReportedLevel|;
    }
  }

  /** The risk levels of the list decisions name them. */
  lemma ListLevelOf(d: Decision, n: NormalizedUrl)
    ensures VerdictOf(d, n).riskLevel == TrustedLevel <==> d.ByWhitelist?
    ensures VerdictOf(d, n).riskLevel == ReportedLevel <==> d.ByDatabase?
  {
    LevelsDistinct(n);
  }

  /** The risk levels of the blocklist and the probe name them. */
  lemma LateLevelOf(d: Decision, n: NormalizedUrl)
    ensures VerdictOf(d, n).riskLevel == BlocklistedLevel <==> d.ByBlocklist?
    ensures VerdictOf(d, n).riskLevel == UnreachableLevel <==> d.ByProbe?
  {
    LevelsDistinct(n);
  }

  /** Each risk level names the source that decided. */
  lemma LevelNamesDecision(n: NormalizedUrl, env: Env)
    ensures Decide(n, env).verdict.riskLevel == TrustedLevel <==> Deciding(n, env).ByWhitelist?
    ensures Decide(n, env).verdict.riskLevel == ReportedLevel <==> Deciding(n, env).ByDatabase?
    ensures Decide(n, env).verdict.riskLevel == BlocklistedLevel <==> Deciding(n, env).ByBlocklist?
    ensures Decide(n, env).verdict.riskLevel == UnreachableLevel <==> Deciding(n, env).ByProbe?
  {
    ListLevelOf(Deciding(n, env), n);
    LateLevelOf(Deciding(n, env), n);
  }

  // ---------------------------------------------------------------------
  // Which source decides
  // ---------------------------------------------------------------------

  /** A trusted site is decided by the whitelist alone: no query, no lookup, no request. */
  lemma TrustedShortCircuits(n: NormalizedUrl, env: Env)
    requires IsWhitelisted(n.rawDomain, n.domain)
    ensures Decide(n, env) == Outcome(Trusted(n.inputUrl), [WhitelistCheck])
  {
  }

  /** The database decides exactly when the site is not trusted and the database reports a record. */
  lemma ReportedIff(n: NormalizedUrl, env: Env)
    ensures Decide(n, env).verdict.riskLevel == ReportedLevel <==>
      !IsWhitelisted(n.rawDomain, n.domain) && env.db.Some? && Lookup(env.db.value, n.inputUrl).Some?
  {
    LevelNamesDecision(n, env);
  }

  /** The blocklist decides exactly when nothing before it did and it holds the domain. */
  lemma BlocklistedIff(n: NormalizedUrl, env: Env)
    ensures Decide(n, env).verdict.riskLevel == BlocklistedLevel <==>
      !IsWhitelisted(n.rawDomain, n.domain) && DbMatch(env.db, n.inputUrl).None? && n.domain in env.phishTank
  {
    LevelNamesDecision(n, env);
  }

  /** The database issues only database queries. */
  lemma DbTrailOnlyQueries(db: Option<Repository>, url: string)
    ensures PhishTankCheck !in DbTrail(db, url) && Reachability !in DbTrail(db, url) && Scoring !in DbTrail(db, url)
  {
  }

  /** The last three stages appear in a trail exactly when the decision came at or after them. */
  lemma TrailStages(d: Decision, dbQueries: seq<Stage>)
    requires PhishTankCheck !in dbQueries && Reachability !in dbQueries && Scoring !in dbQueries
    ensures PhishTankCheck in Trail(d, dbQueries) <==> d.ByBlocklist? || d.ByProbe? || d.ByScore?
    ensures Reachability in Trail(d, dbQueries) <==> d.ByProbe? || d.ByScore?
    ensures Scoring in Trail(d, dbQueries) <==> d.ByScore?
  {
  }

  /** The request and the rule-based score come after every list: each occurs in the trail exactly when the sources before it passed. */
  lemma ProbeOnlyAfterLists(n: NormalizedUrl, env: Env)
    ensures Reachability in Decide(n, env).trail <==>
      !IsWhitelisted(n.rawDomain, n.domain) && DbMatch(env.db, n.inputUrl).None? && n.domain !in env.phishTank
    ensures Scoring in Decide(n, env).trail <==> Reachability in Decide(n, env).trail && IsUp(env.probe)
  {
    DbTrailOnlyQueries(env.db, n.inputUrl);
    TrailStages(Deciding(n, env), DbTrail(env.db, n.inputUrl));
  }

  /** A domain on the blocklist that passed the whitelist and the database gets the blocklist's answer. */
  lemma BlocklistDecides(n: NormalizedUrl, env: Env)
    requires !IsWhitelisted(n.rawDomain, n.domain)
    requires DbMatch(env.db, n.inputUrl).None?
    requires n.domain in env.phishTank
    ensures Decide(n, env).verdict == Blocklisted(n.inputUrl)
  {
  }

  /** Once the request is sent, the site is reported unreachable exactly when the probe fails. */
  lemma UnreachableIff(n: NormalizedUrl, env: Env)
    requires Reachability in Decide(n, env).trail
    ensures Decide(n, env).verdict.riskLevel == UnreachableLevel <==> !IsUp(env.probe)
  {
    DbTrailOnlyQueries(env.db, n.inputUrl);
    TrailStages(Deciding(n, env), DbTrail(env.db, n.inputUrl));
    LevelNamesDecision(n, env);
  }

  /** A scan that reaches the last stage carries the rule-based assessment unchanged. */
  lemma ScoredCarriesAssessment(n: NormalizedUrl, env: Env)
    requires Scoring in Decide(n, env).trail
    ensures IsUp(env.probe)
    ensures Decide(n, env).verdict == Scored(n.inputUrl, Assess(n))
  {
    DbTrailOnlyQueries(env.db, n.inputUrl);
    TrailStages(Deciding(n, env), DbTrail(env.db, n.inputUrl));
  }

  // ---------------------------------------------------------------------
  // Database queries
  // ---------------------------------------------------------------------

  /** The database queries appear in a trail exactly when the whitelist did not decide and they were made. */
  lemma TrailQueries(d: Decision, dbQueries: seq<Stage>)
    ensures DbExactQuery in Trail(d, dbQueries) <==> !d.ByWhitelist? && DbExactQuery in dbQueries
    ensures DbContainsQuery in Trail(d, dbQueries) <==> !d.ByWhitelist? && DbContainsQuery in dbQueries
  {
  }

  /** The "contains" query is among the database's queries exactly when it is used. */
  lemma DbTrailContains(db: Option<Repository>, url: string)
    ensures DbContainsQuery in DbTrail(db, url) <==> db.Some? && UsesPartialSearch(db.value, url)
  {
  }

  /** Without a database session no query is made. */
  lemma NoSessionNoQuery(n: NormalizedUrl, env: Env)
    requires env.db.None?
    ensures DbExactQuery !in Decide(n, env).trail && DbContainsQuery !in Decide(n, env).trail
  {
    TrailQueries(Deciding(n, env), DbTrail(env.db, n.inputUrl));
  }

  /** Inputs of at most six characters never trigger the "contains" query. */
  lemma ShortInputNoContainsQuery(n: NormalizedUrl, env: Env)
    requires |n.inputUrl| <= MinPartialLength
    ensures DbContainsQuery !in Decide(n, env).trail
  {
    TrailQueries(Deciding(n, env), DbTrail(env.db, n.inputUrl));
  }

  /** The "contains" query is made only for an untrusted long input after the exact query came back empty. */
  lemma ContainsQueryFollowsExact(n: NormalizedUrl, env: Env)
    ensures DbContainsQuery in Decide(n, env).trail <==>
      !IsWhitelisted(n.rawDomain, n.domain) && env.db.Some?
      && ExactMatch(env.db.value.records, n.inputUrl).None? && |n.inputUrl| > MinPartialLength
  {
    DbTrailContains(env.db, n.inputUrl);
    TrailQueries(Deciding(n, env), DbTrail(env.db, n.inputUrl));
  }

  // ---------------------------------------------------------------------
  // Normalisation
  // ---------------------------------------------------------------------

  /** Scanning depends on the input only through its normal form: rescanning `input_url` gives the same outcome. */
  lemma ScanOfNormalForm(raw: string, env: Env)
    ensures Scan(Normalize(raw).inputUrl, env) == Scan(raw, env)
  {
    NormalizeIdempotent(raw);
  }

  /**
    A host on the blocklist is caught whichever form the user types: with
    or without scheme, with or without "www.", with any path, in any
    letter case and with any whitespace around it. The typed text `raw`
    is anything whose trimmed, lower-cased form is `scheme + www + h + p`.
    `FeedEntryBlocksScan` adds the feed side.
   */
  lemma BlocklistedHostCaught(raw: string, scheme: string, www: string, h: string, p: string, env: Env)
    requires scheme == "" || scheme == Http || scheme == Https
    requires www == "" || www == Www
    requires IsPlainHost(h) && IsPathTail(p)
    requires Lower(Strip(raw)) == scheme + www + h + p
    requires !IsWhitelisted(h, h)
    requires DbMatch(env.db, scheme + www + h + p).None?
    requires h in env.phishTank
    ensures Scan(raw, env).verdict == Blocklisted(scheme + www + h + p)
  {
    var u := scheme + www + h + p;
    TypedFormIsNormal(raw, scheme, www, h, p);
    NormalizeExtractsHost(scheme, www, h, p);
    BlocklistDecides(Normalize(u), env);
    ScanOfNormalForm(raw, env);
  }

  /**
    A feed entry `scheme1 + www1 + host + path1` blocks every typed form
    `raw` of the same host, as in `BlocklistedHostCaught`: loading cleans
    the entry to the host, and normalisation reduces the typed URL to it.
   */
  lemma FeedEntryBlocksScan(feed: seq<FeedEntry>, j: nat, scheme1: string, www1: string, p1: string,
                            raw: string, scheme2: string, www2: string, h: string, p2: string, env: Env)
    requires j < LoadablePrefix(feed)
    requires feed[j] == Entry(scheme1 + www1 + h + p1)
    requires scheme1 == "" || scheme1 == Http || scheme1 == Https
    requires www1 == "" || www1 == Www
    requires IsPathTail(p1)
    requires LoadedFrom(env.phishTank, feed)
    requires scheme2 == "" || scheme2 == Http || scheme2 == Https
    requires www2 == "" || www2 == Www
    requires IsPlainHost(h) && IsPathTail(p2)
    requires Lower(Strip(raw)) == scheme2 + www2 + h + p2
    requires !IsWhitelisted(h, h)
    requires DbMatch(env.db, scheme2 + www2 + h + p2).None?
    ensures Scan(raw, env).verdict == Blocklisted(scheme2 + www2 + h + p2)
  {
    CleanEntryExtractsHost(scheme1, www1, h, p1);
    assert h in env.phishTank;
    BlocklistedHostCaught(raw, scheme2, www2, h, p2, env);
  }

  /** A site that passed all three lists is probed, then scored or reported unreachable. */
  lemma PassesLists(n: NormalizedUrl, env: Env)
    requires !IsWhitelisted(n.rawDomain, n.domain)
    requires DbMatch(env.db, n.inputUrl).None?
    requires n.domain !in env.phishTank
    ensures Reachability in Decide(n, env).trail
    ensures IsUp(env.probe) ==> Decide(n, env).verdict == Scored(n.inputUrl, Assess(n))
    ensures !IsUp(env.probe) ==> Decide(n, env).verdict == Unreachable(n.inputUrl)
  {
    DbTrailOnlyQueries(env.db, n.inputUrl);
    TrailStages(Deciding(n, env), DbTrail(env.db, n.inputUrl));
  }

  /**
    The partner of `BlocklistedHostCaught`: a host that is neither trusted,
    reported nor blocklisted, in any typed form `raw` as there, is probed
    and then scored on its normal form or reported unreachable.
   */
  lemma UnlistedHostReachesProbe(raw: string, scheme: string, www: string, h: string, p: string, env: Env)
    requires scheme == "" || scheme == Http || scheme == Https
    requires www == "" || www == Www
    requires IsPlainHost(h) && IsPathTail(p)
    requires Lower(Strip(raw)) == scheme + www + h + p
    requires !IsWhitelisted(h, h)
    requires DbMatch(env.db, scheme + www + h + p).None?
    requires h !in env.phishTank
    ensures Reachability in Scan(raw, env).trail
    ensures IsUp(env.probe) ==>
      Scan(raw, env).verdict == Scored(scheme + www + h + p, Assess(Normalize(scheme + www + h + p)))
    ensures !IsUp(env.probe) ==>
      Scan(raw, env).verdict == Unreachable(scheme + www + h + p)
  {
    var u := scheme + www + h + p;
    TypedFormIsNormal(raw, scheme, www, h, p);
    NormalizeExtractsHost(scheme, www, h, p);
    PassesLists(Normalize(u), env);
    ScanOfNormalForm(raw, env);
  }

  /**
    A host is not trusted when it is no entry and no part of it after a
    dot is an entry.
   */
  lemma NoEntryAfterDot(h: string)
    requires h !in SafeDomains
    requires forall i :: 0 <= i < |h| && h[i] == '.' ==> h[i + 1..] !in SafeDomains
    ensures !IsWhitelisted(h, h)
  {
    forall k | 0 <= k < |SafeDomains|
      ensures !SuffixMatch(h, SafeDomains[k])
    {
      var safe := SafeDomains[k];
      if EndsWith(h, "." + safe) {
        DotSuffixParts(h, safe);
      }
    }
    WhitelistIsExactOrDotSuffix(h, h);
  }

  /** Every whitelist entry starts with a letter. */
  lemma EntriesStartWithLetter()
    ensures forall k :: 0 <= k < |SafeDomains| ==> |SafeDomains[k]| > 0 && 'a' <= SafeDomains[k][0] <= 'z'
  {
  }

  /**
    A host whose labels all start with a digit, such as a dotted-quad
    address, is never trusted.
   */
  lemma NumericLabelsNotTrusted(h: string)
    requires |h| > 0 && IsDigit(h[0])
    requires forall i :: 0 <= i < |h| && h[i] == '.' ==> i + 1 < |h| && IsDigit(h[i + 1])
    ensures !IsWhitelisted(h, h)
  {
    EntriesStartWithLetter();
    forall i | 0 <= i < |h| && h[i] == '.'
      ensures h[i + 1..] !in SafeDomains
    {
      assert h[i + 1..][0] == h[i + 1];
    }
    NoEntryAfterDot(h);
  }

  /** "192.168.1.1" is not a trusted domain. */
  lemma PrivateAddressNotTrusted(h: string)
    requires h == "192.168.1.1"
    ensures !IsWhitelisted(h, h)
  {
    NumericLabelsNotTrusted(h);
  }

  /** "login.evil.com" is not a trusted domain. */
  lemma EvilSubdomainNotTrusted(h: string)
    requires h == "login.evil.com"
    ensures !IsWhitelisted(h, h)
  {
    assert forall i :: 0 <= i < |h| && h[i] == '.' ==> i == 5 || i == 10;
    assert h[6..] == "evil.com" && h[11..] == "com";
    NotEntries(h);
    NotEntries(h[6..]);
    NotEntries(h[11..]);
    NoEntryAfterDot(h);
  }

  /** "example.com" is not a trusted domain. */
  lemma ExampleNotTrusted(h: string)
    requires h == "example.com"
    ensures !IsWhitelisted(h, h)
  {
    assert forall i :: 0 <= i < |h| && h[i] == '.' ==> i == 7;
    assert h[8..] == "com";
    NotEntries(h);
    NotEntries(h[8..]);
    NoEntryAfterDot(h);
  }

  /** "login.evil.com" is already in normal form, with host "login.evil.com". */
  lemma EvilSubdomainNormalForm(h: string)
    requires h == "login.evil.com"
    ensures Normalize(h).inputUrl == h && Normalize(h).domain == h && Normalize(h).rawDomain == h
  {
    MissingCharNotSubstring(Www, h, 'w');
    assert "" + "" + h + "" == h;
    NormalizeExtractsHost("", "", h, "");
  }

  /** The decision for a normal form with domain "login.evil.com" when only "evil.com" is blocklisted. */
  lemma EvilSubdomainDecide(n: NormalizedUrl, env: Env)
    requires n.domain == "login.evil.com" && n.rawDomain == n.domain
    requires env.phishTank == {"evil.com"}
    requires DbMatch(env.db, n.inputUrl).None?
    ensures Reachability in Decide(n, env).trail
    ensures Decide(n, env).verdict.riskLevel != BlocklistedLevel
  {
    EvilSubdomainNotTrusted(n.domain);
    PassesLists(n, env);
    LevelNamesDecision(n, env);
  }

  /**
    The blocklist is matched on the whole domain: with "evil.com" listed,
    "login.evil.com" passes the blocklist and the scan goes on to the
    reachability probe.
   */
  lemma SubdomainEscapesBlocklist(u: string, env: Env)
    requires u == "login.evil.com"
    requires env.phishTank == {"evil.com"}
    requires DbMatch(env.db, u).None?
    ensures Reachability in Scan(u, env).trail
    ensures Scan(u, env).verdict.riskLevel != BlocklistedLevel
  {
    EvilSubdomainNormalForm(u);
    EvilSubdomainDecide(Normalize(u), env);
  }

  /** "http://" + "192.168.1.1" + "/login" is already in normal form, with host "192.168.1.1". */
  lemma InsecureIpLoginNormalForm(h: string, p: string)
    requires h == "192.168.1.1" && p == "/login"
    ensures Normalize(Http + h + p).inputUrl == Http + h + p
    ensures Normalize(Http + h + p).checkUrl == Http + h + p
    ensures Normalize(Http + h + p).domain == h && Normalize(Http + h + p).rawDomain == h
  {
    MissingCharNotSubstring(Www, h, 'w');
    assert Http + "" + h + p == Http + h + p;
    NormalizeExtractsHost(Http, "", h, p);
  }

  /** The decision for a normal form equal to "http://192.168.1.1/login" on an unlisted site that answers. */
  lemma InsecureIpLoginDecide(n: NormalizedUrl, env: Env)
    requires n.inputUrl == "http://192.168.1.1/login" && n.checkUrl == n.inputUrl
    requires n.domain == "192.168.1.1" && n.rawDomain == n.domain
    requires DbMatch(env.db, n.inputUrl).None?
    requires n.domain !in env.phishTank
    requires IsUp(env.probe)
    ensures Decide(n, env).verdict.score == 5
    ensures Decide(n, env).verdict.riskLevel == Dangerous
    ensures Decide(n, env).verdict.details == [InsecureNote, IpNote, KeywordNote(["login"])]
  {
    PrivateAddressNotTrusted(n.domain);
    PassesLists(n, env);
    InsecureIpLoginAssessment(n);
  }

  /**
    An unlisted site that answers, "http://192.168.1.1/login", gets the
    rule-based verdict: 5 points, "Tehlikeli", with the insecure-scheme,
    IP-address and keyword notes.
   */
  lemma InsecureIpLoginScan(h: string, p: string, env: Env)
    requires h == "192.168.1.1" && p == "/login"
    requires DbMatch(env.db, Http + h + p).None?
    requires h !in env.phishTank
    requires IsUp(env.probe)
    ensures Scan(Http + h + p, env).verdict.score == 5
    ensures Scan(Http + h + p, env).verdict.riskLevel == Dangerous
    ensures Scan(Http + h + p, env).verdict.details == [InsecureNote, IpNote, KeywordNote(["login"])]
  {
    InsecureIpLoginNormalForm(h, p);
    InsecureIpLoginSpelled(h, p);
    InsecureIpLoginDecide(Normalize(Http + h + p), env);
  }

  /** "https://" + "example.com" is already in normal form, with host "example.com". */
  lemma CleanSiteNormalForm(h: string)
    requires h == "example.com"
    ensures Normalize(Https + h).inputUrl == Https + h
    ensures Normalize(Https + h).checkUrl == Https + h
    ensures Normalize(Https + h).domain == h && Normalize(Https + h).rawDomain == h
  {
    MissingCharNotSubstring(Www, h, 'w');
    assert Https + "" + h + "" == Https + h;
    NormalizeExtractsHost(Https, "", h, "");
  }

  /** The decision for a normal form equal to "https://example.com" on an unlisted site that answers. */
  lemma CleanSiteDecide(n: NormalizedUrl, env: Env)
    requires n.inputUrl == "https://example.com" && n.checkUrl == n.inputUrl
    requires n.domain == "example.com" && n.rawDomain == n.domain
    requires DbMatch(env.db, n.inputUrl).None?
    requires n.domain !in env.phishTank
    requires IsUp(env.probe)
    ensures Decide(n, env).verdict.score == BaseScore
    ensures Decide(n, env).verdict.riskLevel == Safe
    ensures Decide(n, env).verdict.details == [CleanNote]
  {
    ExampleNotTrusted(n.domain);
    PassesLists(n, env);
    CleanHttpsAssessment(n);
  }

  /** "https://example.com", unlisted and up, keeps the full 90 points with the "clean" note. */
  lemma CleanSiteScan(h: string, env: Env)
    requires h == "example.com"
    requires DbMatch(env.db, Https + h).None?
    requires h !in env.phishTank
    requires IsUp(env.probe)
    ensures Scan(Https + h, env).verdict.score == BaseScore
    ensures Scan(Https + h, env).verdict.riskLevel == Safe
    ensures Scan(Https + h, env).verdict.details == [CleanNote]
  {
    CleanSiteNormalForm(h);
    CleanSiteSpelled(h);
    CleanSiteDecide(Normalize(Https + h), env);
  }

  // ---------------------------------------------------------------------
  // Proof plumbing for the worked examples. Each lemma evaluates a literal
  // once, so that the scans above never unfold it; inlined, the example
  // proofs run out of the solver's budget. They state nothing about the
  // scanner on their own.
  // ---------------------------------------------------------------------

  /** None of the example hosts, nor the parts after their dots, is a whitelist entry. */
  lemma NotEntries(d: string)
    requires d in {"login.evil.com", "evil.com", "example.com", "com"}
    ensures d !in SafeDomains
  {
  }

  /** The example URL spelled out as one literal. */
  lemma InsecureIpLoginSpelled(h: string, p: string)
    requires h == "192.168.1.1" && p == "/login"
    ensures Http + h + p == "http://192.168.1.1/login"
  {
  }

  /** The example URL spelled out as one literal. */
  lemma CleanSiteSpelled(h: string)
    requires h == "example.com"
    ensures Https + h == "https://example.com"
  {
  }

  /**
    A typed text whose trimmed, lower-cased form is `scheme + www + h + p`
    normalises to that form, and its path part is lower case with no
    trailing whitespace.
   */
  lemma TypedFormIsNormal(raw: string, scheme: string, www: string, h: string, p: string)
    requires h != []
    requires Lower(Strip(raw)) == scheme + www + h + p
    ensures Normalize(raw).inputUrl == scheme + www + h + p
    ensures IsLower(p) && (p == [] || !IsSpace(p[|p| - 1]))
  {
    var u := scheme + www + h + p;
    StripThenLower(raw);
    assert IsStripped(u) && IsLower(u);
    if p != [] {
      assert p[|p| - 1] == u[|u| - 1];
    }
    forall k | 0 <= k < |p|
      ensures !('A' <= p[k] <= 'Z')
    {
      assert p[k] == u[|u| - |p| + k];
    }
  }
}

=== FILE: text.dfy ===
/**
  String primitives the scanner relies on, written out over `seq<char>`:
  whitespace trimming, ASCII case folding, prefix/suffix/substring tests,
  the left-to-right replace-by-empty of `str.replace(old, "")`, and the
  "part before the first separator" of `str.split(sep)[0]`.
 */
module Text {

  /** Whitespace as `str.isspace` sees it, restricted to ASCII and Latin-1. */
  predicate IsSpace(c: char) {
    var n := c as int;
    (9 <= n <= 13) || (28 <= n <= 32) || n == 0x85 || n == 0xA0
  }

  predicate AllSpace(s: string) {
    forall k :: 0 <= k < |s| ==> IsSpace(s[k])
  }

  /** Neither end of `s` is whitespace. */
  predicate IsStripped(s: string) {
    s == [] || (!IsSpace(s[0]) && !IsSpace(s[|s| - 1]))
  }

  /** Number of whitespace characters at the front of `s`. */
  function LeadingSpaces(s: string): (n: nat)
    ensures n <= |s|
    ensures AllSpace(s[..n])
    ensures n < |s| ==> !IsSpace(s[n])
  {
    if s == [] || !IsSpace(s[0]) then 0 else 1 + LeadingSpaces(s[1..])
  }

  /** Number of whitespace characters at the back of `s`. */
  function TrailingSpaces(s: string): (n: nat)
    ensures n <= |s|
    ensures AllSpace(s[|s| - n..])
    ensures n < |s| ==> !IsSpace(s[|s| - n - 1])
  {
    if s == [] || !IsSpace(s[|s| - 1]) then 0 else 1 + TrailingSpaces(s[..|s| - 1])
  }

  /** `s` is `r` with only whitespace before it, from position `i`, and after it. */
  predicate FramedBySpace(s: string, r: string, i: int) {
    0 <= i <= |s| - |r| && s[i..i + |r|] == r && AllSpace(s[..i]) && AllSpace(s[i + |r|..])
  }

  /** `str.strip()`: `s` is the result framed by whitespace on both sides. */
  function Strip(s: string): (r: string)
    ensures IsStripped(r)
    ensures exists i :: FramedBySpace(s, r, i)
  {
    var i := LeadingSpaces(s);
    var t := s[i..];
    var j := TrailingSpaces(t);
    var r := t[..|t| - j];
    assert s[i..i + |r|] == r;
    assert s[i + |r|..] == t[|t| - j..];
    assert FramedBySpace(s, r, i);
    assert r != [] ==> r[0] == s[i] && r[|r| - 1] == t[|t| - j - 1];
    r
  }

  /** Stripping a string that has no whitespace at either end changes nothing. */
  lemma StripStripped(s: string)
    requires IsStripped(s)
    ensures Strip(s) == s
  {
    assert LeadingSpaces(s) == 0;
    assert TrailingSpaces(s) == 0;
  }

  function LowerChar(c: char): char {
    if 'A' <= c <= 'Z' then (c as int + 32) as char else c
  }

  predicate IsLower(s: string) {
    forall k :: 0 <= k < |s| ==> !('A' <= s[k] <= 'Z')
  }

  /** `str.lower()` on the ASCII letters: A-Z become a-z, every other character is kept. */
  function Lower(s: string): (r: string)
    ensures |r| == |s|
    ensures IsLower(r)
    ensures forall k :: 0 <= k < |s| ==>
      r[k] == s[k] || ('A' <= s[k] <= 'Z' && r[k] as int == s[k] as int + 32)
    ensures forall k :: 0 <= k < |s| ==> (IsSpace(r[k]) <==> IsSpace(s[k]))
  {
    seq(|s|, k requires 0 <= k < |s| => LowerChar(s[k]))
  }

  /**
    `t` is `s` with whitespace cut from both ends and A-Z lower-cased: from
    position `i` on, `s` holds `t` before folding, with only whitespace
    around it.
   */
  predicate LowerFramedBySpace(s: string, t: string, i: int) {
    && 0 <= i <= |s| - |t|
    && AllSpace(s[..i]) && AllSpace(s[i + |t|..])
    && forall k :: 0 <= k < |t| ==> t[k] == LowerChar(s[i + k])
  }

  /** `s.strip().lower()` is `t`: `t` is trimmed, and `s` is `t` before folding, framed by whitespace. */
  ghost predicate IsTrimmedLowering(s: string, t: string) {
    IsStripped(t) && exists i :: LowerFramedBySpace(s, t, i)
  }

  /** Stripping then lower-casing yields the trimmed lowering of the input. */
  lemma StripThenLower(s: string)
    ensures IsTrimmedLowering(s, Lower(Strip(s)))
  {
    var r := Strip(s);
    var i :| FramedBySpace(s, r, i);
    forall k | 0 <= k < |r|
      ensures Lower(r)[k] == LowerChar(s[i + k])
    {
      assert r[k] == s[i..i + |r|][k];
    }
    assert LowerFramedBySpace(s, Lower(r), i);
  }

  /** Case folding is idempotent: a folded string folds to itself. */
  lemma LowerIdempotent(s: string)
    requires IsLower(s)
    ensures Lower(s) == s
  {
  }

  predicate StartsWith(s: string, p: string) {
    |p| <= |s| && s[..|p|] == p
  }

  predicate EndsWith(s: string, p: string) {
    |p| <= |s| && s[|s| - |p|..] == p
  }

  /** `t` occurs in `s` starting at index `k`. */
  predicate OccursAt(t: string, s: string, k: int) {
    0 <= k <= |s| - |t| && s[k..k + |t|] == t
  }

  /** Python's `t in s` on strings. */
  predicate IsSubstring(t: string, s: string) {
    exists k :: 0 <= k <= |s| - |t| && OccursAt(t, s, k)
  }

  /** A substring of a suffix of `s` is a substring of `s`. */
  lemma SubstringOfSuffix(t: string, s: string, d: nat)
    requires d <= |s|
    requires IsSubstring(t, s[d..])
    ensures IsSubstring(t, s)
  {
    var k :| 0 <= k <= |s[d..]| - |t| && OccursAt(t, s[d..], k);
    assert s[d..][k..k + |t|] == s[d + k..d + k + |t|];
    assert OccursAt(t, s, d + k);
  }

  /** A string that lacks some character of `t` cannot contain `t`. */
  lemma MissingCharNotSubstring(t: string, s: string, c: char)
    requires c in t
    requires c !in s
    ensures !IsSubstring(t, s)
  {
    forall k | 0 <= k <= |s| - |t|
      ensures !OccursAt(t, s, k)
    {
    }
  }

  /**
    `s.replace(pat, "")`: scan left to right, dropping every occurrence of
    `pat` found at the current position and resuming after it.
   */
  function RemoveAll(s: string, pat: string): (r: string)
    requires pat != []
    ensures |r| <= |s|
    decreases |s|
  {
    if |s| < |pat| then s
    else if s[..|pat|] == pat then RemoveAll(s[|pat|..], pat)
    else [s[0]] + RemoveAll(s[1..], pat)
  }

  /** Removal introduces no character that was not there. */
  lemma {:induction false} RemoveAllNewChar(s: string, pat: string, c: char)
    requires pat != []
    requires c !in s
    ensures c !in RemoveAll(s, pat)
    decreases |s|
  {
    if |s| >= |pat| {
      if s[..|pat|] == pat {
        RemoveAllNewChar(s[|pat|..], pat, c);
      } else {
        RemoveAllNewChar(s[1..], pat, c);
      }
    }
  }

  /** Removing a pattern that does not occur leaves the string unchanged. */
  lemma {:induction false} RemoveAllAbsent(s: string, pat: string)
    requires pat != []
    requires !IsSubstring(pat, s)
    ensures RemoveAll(s, pat) == s
    decreases |s|
  {
    if |s| >= |pat| {
      assert !OccursAt(pat, s, 0);
      if IsSubstring(pat, s[1..]) {
        SubstringOfSuffix(pat, s, 1);
      }
      RemoveAllAbsent(s[1..], pat);
      assert s == [s[0]] + s[1..];
    }
  }

  /** An occurrence of `pat` in `a + b` takes its first `i` characters from the end of `a`. */
  predicate StraddlesAt(a: string, b: string, pat: string, i: int) {
    0 < i < |pat| && i <= |a| && |pat| - i <= |b| && a[|a| - i..] + b[..|pat| - i] == pat
  }

  /** No occurrence of `pat` in `a + b` starts in `a` and ends in `b`. */
  predicate NoStraddle(a: string, b: string, pat: string) {
    forall i :: 0 < i < |pat| ==> !StraddlesAt(a, b, pat, i)
  }

  /**
    An occurrence across the seam would put the last character of `a`
    right before the first of `b` inside `pat`; if that pair never occurs
    in `pat`, nothing straddles.
   */
  lemma NoStraddleFromSeam(a: string, b: string, pat: string)
    requires a != [] && b != []
    requires forall i :: 0 < i < |pat| ==> !(pat[i - 1] == a[|a| - 1] && pat[i] == b[0])
    ensures NoStraddle(a, b, pat)
  {
    forall i | 0 < i < |pat| && i <= |a| && |pat| - i <= |b|
      ensures !StraddlesAt(a, b, pat, i)
    {
      var w := a[|a| - i..] + b[..|pat| - i];
      assert w[i - 1] == a[|a| - 1] && w[i] == b[0];
    }
  }

  /** Dropping a prefix of `a` keeps the seam free of straddling occurrences. */
  lemma NoStraddleDropFront(a: string, b: string, pat: string, m: nat)
    requires m <= |a|
    requires NoStraddle(a, b, pat)
    ensures NoStraddle(a[m..], b, pat)
  {
    var a' := a[m..];
    forall i | 0 < i < |pat|
      ensures !StraddlesAt(a', b, pat, i)
    {
      assert !StraddlesAt(a, b, pat, i);
      if i <= |a'| {
        assert a'[|a'| - i..] == a[|a| - i..];
      }
    }
  }

  /** With nothing straddling the seam, an occurrence at the front of `a + b` lies inside `a`. */
  lemma FrontOccurrenceInA(a: string, b: string, pat: string)
    requires a != [] && |pat| <= |a + b|
    requires NoStraddle(a, b, pat)
    requires (a + b)[..|pat|] == pat
    ensures |pat| <= |a| && a[..|pat|] == pat
  {
    if |a| < |pat| {
      assert a[|a| - |a|..] + b[..|pat| - |a|] == (a + b)[..|pat|];
      assert StraddlesAt(a, b, pat, |a|);
    }
    assert a[..|pat|] == (a + b)[..|pat|];
  }

  /** Removal distributes over a seam no occurrence straddles. */
  lemma {:induction false} RemoveAllConcat(a: string, b: string, pat: string)
    requires pat != []
    requires NoStraddle(a, b, pat)
    ensures RemoveAll(a + b, pat) == RemoveAll(a, pat) + RemoveAll(b, pat)
    decreases |a|
  {
    if a == [] {
      assert a + b == b;
    } else if |a + b| < |pat| {
      assert RemoveAll(a, pat) == a;
      assert RemoveAll(b, pat) == b;
    } else if (a + b)[..|pat|] == pat {
      FrontOccurrenceInA(a, b, pat);
      assert (a + b)[|pat|..] == a[|pat|..] + b;
      NoStraddleDropFront(a, b, pat, |pat|);
      RemoveAllConcat(a[|pat|..], b, pat);
    } else {
      assert (a + b)[1..] == a[1..] + b;
      NoStraddleDropFront(a, b, pat, 1);
      RemoveAllConcat(a[1..], b, pat);
      RemoveAllConcatKeptHead(a, b, pat);
    }
  }

  /** The step of `RemoveAllConcat` where the first character of `a` is kept. */
  lemma {:induction false} RemoveAllConcatKeptHead(a: string, b: string, pat: string)
    requires pat != [] && a != []
    requires |a + b| >= |pat| && (a + b)[..|pat|] != pat
    requires RemoveAll(a[1..] + b, pat) == RemoveAll(a[1..], pat) + RemoveAll(b, pat)
    ensures RemoveAll(a + b, pat) == RemoveAll(a, pat) + RemoveAll(b, pat)
  {
    var ab := a + b;
    var r1, rb := RemoveAll(a[1..], pat), RemoveAll(b, pat);
    assert RemoveAll(ab, pat) == [a[0]] + (r1 + rb) by {
      assert ab[1..] == a[1..] + b;
    }
    assert RemoveAll(a, pat) == [a[0]] + r1 by {
      if |a| >= |pat| {
        assert a[..|pat|] == ab[..|pat|];
      } else {
        assert RemoveAll(a, pat) == a && r1 == a[1..];
        assert a == [a[0]] + a[1..];
      }
    }
    assert [a[0]] + (r1 + rb) == ([a[0]] + r1) + rb;
  }

  /** A leading character that cannot start `pat` survives the removal. */
  lemma RemoveAllKeepsHead(s: string, pat: string)
    requires pat != [] && s != []
    requires s[0] != pat[0]
    ensures RemoveAll(s, pat) == [s[0]] + RemoveAll(s[1..], pat)
  {
    if |s| < |pat| {
      assert RemoveAll(s[1..], pat) == s[1..];
      assert s == [s[0]] + s[1..];
    }
  }

  /** `s.split(sep)[0]`: everything before the first `sep`. */
  function BeforeFirst(s: string, sep: char): (r: string)
    ensures |r| <= |s| && r == s[..|r|]
    ensures sep !in r
    ensures |r| < |s| ==> s[|r|] == sep
  {
    if s == [] || s[0] == sep then [] else [s[0]] + BeforeFirst(s[1..], sep)
  }

  /** Everything before the first character that belongs to `seps`. */
  function BeforeAny(s: string, seps: set<char>): (r: string)
    ensures |r| <= |s| && r == s[..|r|]
    ensures forall k :: 0 <= k < |r| ==> r[k] !in seps
    ensures |r| < |s| ==> s[|r|] in seps
  {
    if s == [] || s[0] in seps then [] else [s[0]] + BeforeAny(s[1..], seps)
  }

  /** `s.rfind(c)`: index of the last `c`, or -1. */
  function LastIndexOf(s: string, c: char): (i: int)
    ensures -1 <= i < |s|
    ensures 0 <= i ==> s[i] == c
    ensures forall k :: i < k < |s| ==> s[k] != c
  {
    if s == [] then -1
    else if s[|s| - 1] == c then |s| - 1
    else LastIndexOf(s[..|s| - 1], c)
  }

  /** The parts in order, with `sep` between consecutive ones (`str.join`). */
  function Join(parts: seq<string>, sep: string): (r: string)
    ensures parts == [] ==> r == []
    ensures |parts| == 1 ==> r == parts[0]
  {
    if parts == [] then []
    else if |parts| == 1 then parts[0]
    else parts[0] + sep + Join(parts[1..], sep)
  }

}

=== FILE: url.dfy ===
/**
  URL normalisation performed before any evidence source is consulted
  (app/scanner.py:33-46), and the blocklist-entry cleaning that mirrors the
  `raw_domain` computation (app/scanner.py:22).

  `urlparse` is modelled only as far as an `http://`/`https://` URL needs:
  `urlsplit` first deletes tab, CR and LF anywhere in the text, the network
  location is what follows `//` up to the first `/`, `?` or `#`, and the
  path runs on to the first `?` or `#`, with `;params` cut off the last
  segment by `urlparse`.
 */
module Url {
  import opened Text

  const Http: string := "http://"
  const Https: string := "https://"
  const Www: string := "www."

  /** The three forms of one URL the scanner works with, plus the raw domain token. */
  datatype NormalizedUrl = NormalizedUrl(
    inputUrl: string,   // trimmed and lower-cased user input; shown to the user and compared with the DB
    checkUrl: string,   // the same with a scheme guaranteed; probed and scored
    domain: string,     // network location (or path) of checkUrl, every "www." removed
    rawDomain: string   // inputUrl with schemes and "www." removed, cut at the first '/'
  )

  predicate HasScheme(s: string) {
    StartsWith(s, Http) || StartsWith(s, Https)
  }

  /**
    Line 22: delete every "https://", then every "http://", then every
    "www.", and keep what comes before the first '/'.
   */
  function CleanEntry(u: string): (r: string)
    ensures '/' !in r
    ensures |r| <= |u|
  {
    BeforeFirst(RemoveAll(RemoveAll(RemoveAll(u, Https), Http), Www), '/')
  }

  /** Characters `urlsplit` deletes wherever they occur in a URL. */
  predicate IsUnsafeUrlChar(c: char) {
    c == '\t' || c == '\r' || c == '\n'
  }

  function DropUnsafe(s: string): (r: string)
    ensures |r| <= |s|
    ensures forall k :: 0 <= k < |r| ==> !IsUnsafeUrlChar(r[k])
  {
    if s == [] then []
    else (if IsUnsafeUrlChar(s[0]) then [] else [s[0]]) + DropUnsafe(s[1..])
  }

  lemma {:induction false} DropUnsafeConcat(a: string, b: string)
    ensures DropUnsafe(a + b) == DropUnsafe(a) + DropUnsafe(b)
    decreases |a|
  {
    if a == [] {
      assert a + b == b;
    } else {
      assert (a + b)[1..] == a[1..] + b;
      DropUnsafeConcat(a[1..], b);
    }
  }

  /** Text without tab, CR or LF passes through unchanged. */
  lemma {:induction false} DropUnsafeKeepsSafe(s: string)
    requires forall k :: 0 <= k < |s| ==> !IsUnsafeUrlChar(s[k])
    ensures DropUnsafe(s) == s
    decreases |s|
  {
    if s != [] {
      DropUnsafeKeepsSafe(s[1..]);
      assert s == [s[0]] + s[1..];
    }
  }

  /** The characters of the scheme prefixes. */
  lemma SchemeChars(pat: string)
    requires pat == Http || pat == Https
    ensures forall k :: 0 <= k < |pat| ==> pat[k] in {'h', 't', 'p', 's', ':', '/'}
  {
  }

  /** Neither scheme prefix holds tab, CR or LF. */
  lemma SchemeIsSafe(pat: string)
    requires pat == Http || pat == Https
    ensures DropUnsafe(pat) == pat
  {
    SchemeChars(pat);
    DropUnsafeKeepsSafe(pat);
  }

  /** Deleting tab, CR and LF keeps a leading scheme prefix in place. */
  lemma DropUnsafeAfterScheme(pat: string, u: string)
    requires pat == Http || pat == Https
    requires StartsWith(u, pat)
    ensures DropUnsafe(u) == pat + DropUnsafe(u[|pat|..])
  {
    assert u == pat + u[|pat|..];
    DropUnsafeConcat(pat, u[|pat|..]);
    SchemeIsSafe(pat);
  }

  /**
    `urlparse` splits `;params` off the last path segment: the path ends at
    the first ';' that follows the last '/' (or at the first ';' when there
    is no '/').
   */
  function DropParams(path: string): (r: string)
    ensures |r| <= |path| && r == path[..|r|]
    ensures ';' !in path ==> r == path
    ensures |r| < |path| ==> path[|r|] == ';' && '/' !in path[|r|..]
    ensures var start := LastSlashOrZero(path);
      && start <= |r|
      && ';' !in path[start..|r|]
      && ((';' in path[start..]) <==> |r| < |path|)
  {
    if ';' !in path then path
    else
      var start := LastSlashOrZero(path);
      var r := path[..start] + BeforeFirst(path[start..], ';');
      assert r == path[..|r|];
      assert |r| < |path| ==> path[|r|..] == path[start..][|r| - start..];
      assert path[start..|r|] == BeforeFirst(path[start..], ';');
      r
  }

  /** Where the search for `;params` starts: the last '/', or 0 when there is none. */
  function LastSlashOrZero(path: string): (start: nat)
    ensures start <= |path|
    ensures start < |path| ==> '/' !in path[start + 1..]
  {
    var slash := LastIndexOf(path, '/');
    if slash < 0 then 0 else slash
  }

  /** A scheme survives the deletion of tab, CR and LF. */
  lemma DropUnsafeKeepsScheme(u: string)
    requires HasScheme(u)
    ensures HasScheme(DropUnsafe(u))
    ensures StartsWith(DropUnsafe(u), Https) <==> StartsWith(u, Https)
  {
    var p := if StartsWith(u, Https) then Https else Http;
    DropUnsafeAfterScheme(p, u);
    assert DropUnsafe(u)[..|p|] == p;
    if !StartsWith(u, Https) {
      assert u[4] == ':';
      assert DropUnsafe(u)[4] == ':';
    }
  }

  /** Length of the `http://` or `https://` prefix. */
  function SchemeLength(u: string): (n: nat)
    requires HasScheme(u)
    ensures n <= |u|
    ensures StartsWith(u, u[..n]) && (u[..n] == Http || u[..n] == Https)
  {
    if StartsWith(u, Https) then |Https| else |Http|
  }

  /** Characters that end a network location. */
  const NetlocEnds: set<char> := {'/', '?', '#'}

  /** The text after the scheme starts with a network location. */
  predicate HasNetloc(rest: string) {
    rest != [] && rest[0] !in NetlocEnds
  }

  /**
    The text after the `http://` or `https://` prefix, once tab, CR and LF
    are deleted from the whole URL.
   */
  function AfterScheme(checkUrl: string): (rest: string)
    requires HasScheme(checkUrl)
    ensures DropUnsafe(checkUrl) == (if StartsWith(checkUrl, Https) then Https else Http) + rest
    ensures forall k :: 0 <= k < |rest| ==> !IsUnsafeUrlChar(rest[k])
  {
    DropUnsafeKeepsScheme(checkUrl);
    var u := DropUnsafe(checkUrl);
    var n := SchemeLength(u);
    assert u == u[..n] + u[n..];
    assert forall k :: 0 <= k < |u| - n ==> u[n..][k] == u[n + k];
    u[n..]
  }

  /**
    What `urlparse` finds after the scheme: the network location, which
    ends at the first '/', '?' or '#', or, when that is empty, the path,
    which ends at the first '?' or '#' and loses its `;params`.
   */
  function NetlocOrPathOf(rest: string): (r: string)
    ensures |r| <= |rest| && r == rest[..|r|]
    ensures forall k :: 0 <= k < |r| ==> r[k] != '?' && r[k] != '#'
    ensures HasNetloc(rest) ==>
      && r != []
      && (forall k :: 0 <= k < |r| ==> r[k] != '/')
      && (|r| == |rest| || rest[|r|] in NetlocEnds)
    ensures !HasNetloc(rest) ==> r == DropParams(BeforeAny(rest, {'?', '#'}))
  {
    var netloc := BeforeAny(rest, NetlocEnds);
    if netloc != [] then netloc
    else
      var q := BeforeAny(rest, {'?', '#'});
      var r := DropParams(q);
      assert forall k :: 0 <= k < |r| ==> r[k] == q[k];
      r
  }

  /** Every character of a prefix of `s` is a character of `s`. */
  lemma PrefixKeepsSafe(s: string, r: string)
    requires forall k :: 0 <= k < |s| ==> !IsUnsafeUrlChar(s[k])
    requires |r| <= |s| && r == s[..|r|]
    ensures forall k :: 0 <= k < |r| ==> !IsUnsafeUrlChar(r[k])
  {
    assert forall k :: 0 <= k < |r| ==> r[k] == s[k];
  }

  /**
    Lines 41-42 for a URL that carries an http(s) scheme: the network
    location, or the path when the network location is empty. Both are
    read from the text after the scheme once tab, CR and LF are deleted.
   */
  function NetlocOrPath(checkUrl: string): (r: string)
    requires HasScheme(checkUrl)
    ensures forall k :: 0 <= k < |r| ==> !IsUnsafeUrlChar(r[k]) && r[k] != '?' && r[k] != '#'
    ensures var rest := AfterScheme(checkUrl);
      && |r| <= |rest| && r == rest[..|r|]
      && (HasNetloc(rest) ==>
            && r != []
            && (forall k :: 0 <= k < |r| ==> r[k] != '/')
            && (|r| == |rest| || rest[|r|] in NetlocEnds))
      && (!HasNetloc(rest) ==> r == DropParams(BeforeAny(rest, {'?', '#'})))
  {
    var rest := AfterScheme(checkUrl);
    var r := NetlocOrPathOf(rest);
    PrefixKeepsSafe(rest, r);
    r
  }

  /**
    Lines 33-46: trim and fold the input, add a scheme, extract both domain
    tokens. `input_url` is the raw input with its surrounding whitespace
    cut and its letters lower-cased, and nothing else changed.
    The domain never holds a line feed: `urlsplit` deletes them, and
    `Heuristic.IsDottedQuad` relies on this.
   */
  function Normalize(raw: string): (n: NormalizedUrl)
    ensures IsStripped(n.inputUrl) && IsLower(n.inputUrl)
    ensures IsTrimmedLowering(raw, n.inputUrl)
    ensures HasScheme(n.checkUrl)
    ensures HasScheme(n.inputUrl) ==> n.checkUrl == n.inputUrl
    ensures !HasScheme(n.inputUrl) ==> n.checkUrl == Https + n.inputUrl
    ensures n.domain == RemoveAll(NetlocOrPath(n.checkUrl), Www)
    ensures n.rawDomain == CleanEntry(n.inputUrl)
    ensures '\n' !in n.domain
  {
    var inputUrl := Lower(Strip(raw));
    StripThenLower(raw);
    var checkUrl := if HasScheme(inputUrl) then inputUrl else Https + inputUrl;
    assert StartsWith(Https + inputUrl, Https);
    var domain := RemoveAll(NetlocOrPath(checkUrl), Www);
    RemoveAllNewChar(NetlocOrPath(checkUrl), Www, '\n');
    NormalizedUrl(inputUrl, checkUrl, domain, CleanEntry(inputUrl))
  }

  // ---------------------------------------------------------------------
  // Normalisation recovers the host of a well-formed URL
  // ---------------------------------------------------------------------

  predicate IsHostChar(c: char) {
    ('a' <= c <= 'z') || ('0' <= c <= '9') || c == '.' || c == '-'
  }

  /** A lower-case DNS-style host name that does not itself contain "www.". */
  predicate IsPlainHost(h: string) {
    && h != []
    && (forall k :: 0 <= k < |h| ==> IsHostChar(h[k]))
    && !IsSubstring(Www, h)
  }

  /** Empty, or a path that starts with '/'. */
  predicate IsPathTail(p: string) {
    p == [] || p[0] == '/'
  }

  /** In both scheme prefixes a '/' follows only ':' or '/'. */
  lemma SchemeSlashes(pat: string)
    requires pat == Http || pat == Https
    ensures forall i :: 0 < i < |pat| && pat[i] == '/' ==> pat[i - 1] == ':' || pat[i - 1] == '/'
  {
    forall i | 0 < i < |pat| && pat[i] == '/'
      ensures pat[i - 1] == ':' || pat[i - 1] == '/'
    {
    }
  }

  /** Removing a pattern from `x + p`, where `x` cannot hold or start it and `p` is a path tail. */
  lemma RemoveAllAfterHost(x: string, p: string, pat: string)
    requires pat == Http || pat == Https || pat == Www
    requires x != []
    requires forall k :: 0 <= k < |x| ==> IsHostChar(x[k])
    requires !IsSubstring(pat, x)
    requires IsPathTail(p)
    ensures RemoveAll(x + p, pat) == x + RemoveAll(p, pat)
    ensures IsPathTail(RemoveAll(p, pat))
  {
    if p == [] {
      assert x + p == x;
    } else {
      if pat == Www {
        assert '/' !in pat;
      } else {
        SchemeSlashes(pat);
      }
      NoStraddleFromSeam(x, p, pat);
      RemoveAllKeepsHead(p, pat);
    }
    RemoveAllConcat(x, p, pat);
    RemoveAllAbsent(x, pat);
  }

  lemma HostHasNoColon(x: string, pat: string)
    requires pat == Http || pat == Https
    requires forall k :: 0 <= k < |x| ==> IsHostChar(x[k])
    ensures !IsSubstring(pat, x)
  {
    assert pat[4] == ':' || pat[5] == ':';
    MissingCharNotSubstring(pat, x, ':');
  }

  lemma {:induction false} BeforeFirstAtSeam(h: string, q: string, sep: char)
    requires sep !in h
    requires q == [] || q[0] == sep
    ensures BeforeFirst(h + q, sep) == h
    decreases |h|
  {
    if h == [] {
      assert h + q == q;
    } else {
      assert (h + q)[1..] == h[1..] + q;
      BeforeFirstAtSeam(h[1..], q, sep);
      assert h == [h[0]] + h[1..];
    }
  }

  lemma {:induction false} BeforeAnyAtSeam(h: string, q: string, seps: set<char>)
    requires forall k :: 0 <= k < |h| ==> h[k] !in seps
    requires q == [] || q[0] in seps
    ensures BeforeAny(h + q, seps) == h
    decreases |h|
  {
    if h == [] {
      assert h + q == q;
    } else {
      assert (h + q)[1..] == h[1..] + q;
      BeforeAnyAtSeam(h[1..], q, seps);
      assert h == [h[0]] + h[1..];
    }
  }

  /** A schemeless host followed by a path does not start with a scheme. */
  lemma HostIsNotScheme(x: string, p: string)
    requires x != []
    requires forall k :: 0 <= k < |x| ==> IsHostChar(x[k])
    requires IsPathTail(p)
    ensures !HasScheme(x + p)
  {
    var s := x + p;
    assert Http[..5] == "http:" && Https[..6] == "https:";
    if |x| >= 6 {
      assert s[4] == x[4] && s[5] == x[5];
    } else if p != [] {
      assert s[|x|] == '/';
      assert |x| == 5 ==> s[4] == x[4];
    }
  }

  /** `www + h` is made of host characters when `h` is. */
  lemma WwwHostChars(www: string, h: string)
    requires www == "" || www == Www
    requires IsPlainHost(h)
    ensures forall k :: 0 <= k < |www + h| ==> IsHostChar((www + h)[k])
  {
    var x := www + h;
    forall k | 0 <= k < |x| ensures IsHostChar(x[k]) {
      if k >= |www| { assert x[k] == h[k - |www|]; }
    }
  }

  /** Removing a pattern that `text` starts with, then the rest. */
  lemma RemoveAllLeading(pat: string, rest: string)
    requires pat != []
    ensures RemoveAll(pat + rest, pat) == RemoveAll(rest, pat)
  {
    assert (pat + rest)[..|pat|] == pat;
    assert (pat + rest)[|pat|..] == rest;
  }

  /** In "https://" a '/' is followed only by '/'. */
  lemma HttpsSlashPairs()
    ensures forall i :: 0 < i < |Https| && Https[i - 1] == '/' ==> Https[i] == '/'
  {
    forall i | 0 < i < |Https| && Https[i - 1] == '/'
      ensures Https[i] == '/'
    {
    }
  }

  /** An "http://" scheme in front of a host is not touched by removing "https://". */
  lemma HttpSchemeSurvives(y: string)
    requires y != [] && y[0] != '/'
    ensures RemoveAll(Http + y, Https) == Http + RemoveAll(y, Https)
  {
    HttpsSlashPairs();
    assert Http[|Http| - 1] == '/';
    NoStraddleFromSeam(Http, y, Https);
    RemoveAllConcat(Http, y, Https);
    assert RemoveAll(Http, Https) == Http;
  }

  /** First cleaning step: "https://" goes, an "http://" scheme stays. */
  lemma CleanStepHttps(scheme: string, x: string, p: string)
    requires scheme == "" || scheme == Http || scheme == Https
    requires x != [] && forall k :: 0 <= k < |x| ==> IsHostChar(x[k])
    requires IsPathTail(p)
    ensures RemoveAll(scheme + (x + p), Https) == (if scheme == Http then Http else "") + (x + RemoveAll(p, Https))
    ensures IsPathTail(RemoveAll(p, Https))
  {
    HostHasNoColon(x, Https);
    RemoveAllAfterHost(x, p, Https);
    var y := x + p;
    if scheme == Https {
      RemoveAllLeading(Https, y);
    } else if scheme == Http {
      assert y[0] == x[0];
      HttpSchemeSurvives(y);
    } else {
      assert scheme + y == y;
    }
  }

  /** Second cleaning step: "http://" goes. */
  lemma CleanStepHttp(scheme: string, x: string, q: string)
    requires scheme == "" || scheme == Http
    requires x != [] && forall k :: 0 <= k < |x| ==> IsHostChar(x[k])
    requires IsPathTail(q)
    ensures RemoveAll(scheme + (x + q), Http) == x + RemoveAll(q, Http)
    ensures IsPathTail(RemoveAll(q, Http))
  {
    HostHasNoColon(x, Http);
    RemoveAllAfterHost(x, q, Http);
    var y := x + q;
    if scheme == Http {
      RemoveAllLeading(Http, y);
    } else {
      assert scheme + y == y;
    }
  }

  /** Third cleaning step: a leading "www." goes and the host keeps its shape. */
  lemma CleanStepWww(www: string, h: string, q: string)
    requires www == "" || www == Www
    requires IsPlainHost(h)
    requires IsPathTail(q)
    ensures RemoveAll(www + (h + q), Www) == h + RemoveAll(q, Www)
    ensures IsPathTail(RemoveAll(q, Www))
  {
    RemoveAllAfterHost(h, q, Www);
    var y := h + q;
    if www == Www {
      RemoveAllLeading(Www, y);
    } else {
      assert www + y == y;
    }
  }

  /** The first two cleaning steps strip any scheme from `scheme + (x + p)`. */
  lemma CleanSchemes(scheme: string, x: string, p: string)
    requires scheme == "" || scheme == Http || scheme == Https
    requires x != [] && forall k :: 0 <= k < |x| ==> IsHostChar(x[k])
    requires IsPathTail(p)
    ensures RemoveAll(RemoveAll(scheme + (x + p), Https), Http) == x + RemoveAll(RemoveAll(p, Https), Http)
    ensures IsPathTail(RemoveAll(RemoveAll(p, Https), Http))
  {
    CleanStepHttps(scheme, x, p);
    var kept := if scheme == Http then Http else "";
    CleanStepHttp(kept, x, RemoveAll(p, Https));
  }

  /**
    Blocklist cleaning recovers the host of `scheme + www + host + path`
    for any of the schemes the scanner recognises and with or without the
    "www." label.
   */
  lemma CleanEntryExtractsHost(scheme: string, www: string, h: string, p: string)
    requires scheme == "" || scheme == Http || scheme == Https
    requires www == "" || www == Www
    requires IsPlainHost(h)
    requires IsPathTail(p)
    ensures CleanEntry(scheme + www + h + p) == h
  {
    var x := www + h;
    WwwHostChars(www, h);
    CleanSchemes(scheme, x, p);
    var q := RemoveAll(RemoveAll(p, Https), Http);
    CleanWww(www, h, q);
    RegroupUrl(scheme, www, h, p);
    CleanEntrySteps(scheme + www + h + p, x, q, h);
  }

  /** The last cleaning steps: a leading "www." goes, and the host ends at the path's '/'. */
  lemma CleanWww(www: string, h: string, q: string)
    requires www == "" || www == Www
    requires IsPlainHost(h)
    requires IsPathTail(q)
    ensures BeforeFirst(RemoveAll((www + h) + q, Www), '/') == h
  {
    assert (www + h) + q == www + (h + q);
    CleanStepWww(www, h, q);
    BeforeFirstAtSeam(h, RemoveAll(q, Www), '/');
  }

  /** A trimmed, lower-case input is its own normal form. */
  lemma NormalInputUnchanged(raw: string)
    requires IsStripped(raw) && IsLower(raw)
    ensures Lower(Strip(raw)) == raw
  {
    StripStripped(raw);
    LowerIdempotent(raw);
  }

  /** A host followed by a lower-case path with no trailing whitespace is trimmed and lower case. */
  lemma HostPathIsNormal(x: string, p: string)
    requires x != [] && forall k :: 0 <= k < |x| ==> IsHostChar(x[k])
    requires IsLower(p) && (p == [] || !IsSpace(p[|p| - 1]))
    ensures IsStripped(x + p) && IsLower(x + p)
  {
    var y := x + p;
    forall k | 0 <= k < |y| ensures !('A' <= y[k] <= 'Z') {
      if k < |x| { assert y[k] == x[k]; } else { assert y[k] == p[k - |x|]; }
    }
    assert !IsSpace(y[0]) by { assert y[0] == x[0]; }
    assert !IsSpace(y[|y| - 1]) by {
      if p == [] { assert y[|y| - 1] == x[|x| - 1]; } else { assert y[|y| - 1] == p[|p| - 1]; }
    }
  }

  /** Putting a scheme in front keeps a non-empty normal input normal. */
  lemma SchemeKeepsNormal(c: string, y: string)
    requires c == Http || c == Https
    requires y != [] && IsStripped(y) && IsLower(y)
    ensures IsStripped(c + y) && IsLower(c + y)
  {
    SchemesAreLower();
    var raw := c + y;
    assert raw[0] == 'h';
    assert raw[|raw| - 1] == y[|y| - 1];
    forall k | 0 <= k < |raw| ensures !('A' <= raw[k] <= 'Z') {
      if k >= |c| { assert raw[k] == y[k - |c|]; } else { assert raw[k] == c[k]; }
    }
  }

  /** A URL built from a scheme, a host and a lower-case trimmed path is trimmed and lower case. */
  lemma HostUrlIsNormal(scheme: string, x: string, p: string)
    requires scheme == "" || scheme == Http || scheme == Https
    requires x != [] && forall k :: 0 <= k < |x| ==> IsHostChar(x[k])
    requires IsLower(p) && (p == [] || !IsSpace(p[|p| - 1]))
    ensures IsStripped(scheme + (x + p)) && IsLower(scheme + (x + p))
  {
    HostPathIsNormal(x, p);
    if scheme == "" {
      assert scheme + (x + p) == x + p;
    } else {
      SchemeKeepsNormal(scheme, x + p);
    }
  }

  /** A path tail stays a path tail when tab, CR and LF are deleted. */
  lemma DropUnsafeKeepsPathTail(p: string)
    requires IsPathTail(p)
    ensures IsPathTail(DropUnsafe(p))
  {
    if p != [] {
      assert DropUnsafe(p) == [p[0]] + DropUnsafe(p[1..]);
    }
  }

  /** Deleting tab, CR and LF touches neither the scheme nor the host. */
  lemma DropUnsafeOfHostUrl(c: string, x: string, p: string)
    requires DropUnsafe(c) == c
    requires forall k :: 0 <= k < |x| ==> IsHostChar(x[k])
    ensures DropUnsafe(c + (x + p)) == c + (x + DropUnsafe(p))
  {
    DropUnsafeConcat(c, x + p);
    DropUnsafeConcat(x, p);
    DropUnsafeKeepsSafe(x);
  }

  /** After the scheme, the network location runs up to the path. */
  lemma SchemeThenHost(c: string, x: string, q: string)
    requires c == Http || c == Https
    requires x != [] && forall k :: 0 <= k < |x| ==> IsHostChar(x[k])
    requires IsPathTail(q)
    ensures HasScheme(c + (x + q))
    ensures c + (x + q) == (c + (x + q))[..SchemeLength(c + (x + q))] + (x + q)
  {
    var u := c + (x + q);
    assert u[..|c|] == c;
    assert SchemeLength(u) == |c| by {
      if c == Http { assert u[4] == ':'; }
    }
  }

  /** The network location of `c + (x + p)` is `x`. */
  lemma NetlocOfHostUrl(c: string, x: string, p: string)
    requires c == Http || c == Https
    requires x != [] && forall k :: 0 <= k < |x| ==> IsHostChar(x[k])
    requires IsPathTail(p)
    ensures HasScheme(c + (x + p))
    ensures NetlocOrPath(c + (x + p)) == x
  {
    var url := c + (x + p);
    assert url[..|c|] == c;
    SchemeIsSafe(c);
    DropUnsafeOfHostUrl(c, x, p);
    DropUnsafeKeepsPathTail(p);
    var q := DropUnsafe(p);
    var u := DropUnsafe(url);
    assert u == c + (x + q);
    SchemeThenHost(c, x, q);
    var n := SchemeLength(u);
    assert u[n..] == x + q;
    BeforeAnyAtSeam(x, q, NetlocEnds);
  }

  /** The scheme the normaliser puts in front of `scheme + y`. */
  lemma CheckUrlOfHostUrl(scheme: string, x: string, p: string)
    requires scheme == "" || scheme == Http || scheme == Https
    requires x != [] && forall k :: 0 <= k < |x| ==> IsHostChar(x[k])
    requires IsPathTail(p)
    requires IsLower(p) && (p == [] || !IsSpace(p[|p| - 1]))
    ensures Normalize(scheme + (x + p)).inputUrl == scheme + (x + p)
    ensures Normalize(scheme + (x + p)).checkUrl == (if scheme == "" then Https else scheme) + (x + p)
  {
    var raw := scheme + (x + p);
    HostUrlIsNormal(scheme, x, p);
    NormalInputUnchanged(raw);
    if scheme == "" {
      assert raw == x + p;
      HostIsNotScheme(x, p);
    } else {
      assert raw[..|scheme|] == scheme;
    }
  }

  /** How `domain` is obtained from `check_url`. */
  lemma NormalizeDomain(raw: string)
    ensures Normalize(raw).domain == RemoveAll(NetlocOrPath(Normalize(raw).checkUrl), Www)
  {
  }

  /** The domain of `scheme + www + host + path` is the host. */
  lemma DomainOfHostUrl(scheme: string, www: string, h: string, p: string)
    requires scheme == "" || scheme == Http || scheme == Https
    requires www == "" || www == Www
    requires IsPlainHost(h)
    requires IsPathTail(p)
    requires IsLower(p) && (p == [] || !IsSpace(p[|p| - 1]))
    ensures Normalize(scheme + ((www + h) + p)).domain == h
  {
    var x := www + h;
    WwwHostChars(www, h);
    CheckUrlOfHostUrl(scheme, x, p);
    var c := if scheme == "" then Https else scheme;
    NetlocOfHostUrl(c, x, p);
    NormalizeDomain(scheme + (x + p));
    WwwDropped(www, h);
  }

  /** Removing "www." from `www + h` leaves the plain host. */
  lemma WwwDropped(www: string, h: string)
    requires www == "" || www == Www
    requires IsPlainHost(h)
    ensures RemoveAll(www + h, Www) == h
  {
    RemoveAllAbsent(h, Www);
    if www == Www {
      RemoveAllLeading(Www, h);
    } else {
      assert www + h == h;
    }
  }

  /**
    Normalising `scheme + www + host + path` yields the host as both
    `domain` and `raw_domain`, and adds `https://` exactly when the input
    has no scheme.
   */
  lemma NormalizeExtractsHost(scheme: string, www: string, h: string, p: string)
    requires scheme == "" || scheme == Http || scheme == Https
    requires www == "" || www == Www
    requires IsPlainHost(h)
    requires IsPathTail(p)
    requires IsLower(p) && (p == [] || !IsSpace(p[|p| - 1]))
    ensures var n := Normalize(scheme + www + h + p);
      && n.inputUrl == scheme + www + h + p
      && n.checkUrl == (if scheme == "" then Https else "") + n.inputUrl
      && n.domain == h
      && n.rawDomain == h
  {
    RegroupUrl(scheme, www, h, p);
    WwwHostChars(www, h);
    CheckUrlOfHostUrl(scheme, www + h, p);
    DomainOfHostUrl(scheme, www, h, p);
    CleanEntryExtractsHost(scheme, www, h, p);
  }

  /** Normalising is idempotent: the normal form of `input_url` is the same as that of the raw input. */
  lemma NormalizeIdempotent(raw: string)
    ensures Normalize(Normalize(raw).inputUrl) == Normalize(raw)
  {
    NormalInputUnchanged(Normalize(raw).inputUrl);
  }

  // ---------------------------------------------------------------------
  // Proof plumbing. These lemmas regroup concatenations and evaluate the
  // scheme literals so that the proofs above stay within the solver's
  // budget; they state nothing about the scanner on their own.
  // ---------------------------------------------------------------------

  /** Cleaning in two stages: the schemes leave `x + q`, the rest leaves `h`. */
  lemma CleanEntrySteps(u: string, x: string, q: string, h: string)
    requires RemoveAll(RemoveAll(u, Https), Http) == x + q
    requires BeforeFirst(RemoveAll(x + q, Www), '/') == h
    ensures CleanEntry(u) == h
  {
  }

  lemma SchemesAreLower()
    ensures IsLower(Http) && IsLower(Https)
  {
  }

  lemma RegroupUrl(scheme: string, www: string, h: string, p: string)
    ensures scheme + www + h + p == scheme + ((www + h) + p)
  {
  }

}

=== FILE: whitelist.dfy ===
/**
  The first evidence source: a fixed list of trusted domain tokens
  (app/scanner.py:52-81). A URL is trusted when its raw domain is one of
  the entries, or when its domain is an entry or ends with "." followed by
  an entry. The source first checks that some entry occurs anywhere in the
  domain before looking for the exact/suffix match; that guard is modelled
  and shown to change nothing.
 */
module Whitelist {
  import opened Text

  const SafeDomains: seq<string> := [
    "google", "google.com",
    "youtube", "youtube.com",
    "facebook", "facebook.com",
    "twitter", "twitter.com", "x.com",
    "instagram", "instagram.com",
    "linkedin", "linkedin.com",
    "github", "github.com",
    "microsoft", "microsoft.com",
    "apple", "apple.com",
    "amazon", "amazon.com",
    "netflix", "netflix.com",
    "stackoverflow", "stackoverflow.com",
    "wikipedia", "wikipedia.org",
    "whatsapp", "whatsapp.com",
    "turkiye.gov.tr", "enabiz.gov.tr",
    "ziraatbank.com.tr", "garantibbva.com.tr", "isbank.com.tr"
  ]

  /** The domain is the entry itself, or ends with a dot followed by the entry (line 79). */
  predicate SuffixMatch(domain: string, safe: string) {
    domain == safe || EndsWith(domain, "." + safe)
  }

  /** The guard of line 75: some entry occurs somewhere in the domain. */
  function AnyContained(entries: seq<string>, domain: string): (b: bool)
    ensures b <==> exists k :: 0 <= k < |entries| && IsSubstring(entries[k], domain)
  {
    if entries == [] then false
    else IsSubstring(entries[0], domain) || AnyContained(entries[1..], domain)
  }

  /** The loop of lines 78-81: does some entry match exactly or as a dot-suffix? */
  function AnySuffixMatch(entries: seq<string>, domain: string): (b: bool)
    ensures b <==> exists k :: 0 <= k < |entries| && SuffixMatch(domain, entries[k])
  {
    if entries == [] then false
    else SuffixMatch(domain, entries[0]) || AnySuffixMatch(entries[1..], domain)
  }

  /** `is_safe` after lines 72-81. */
  predicate IsWhitelisted(rawDomain: string, domain: string) {
    rawDomain in SafeDomains
    || (AnyContained(SafeDomains, domain) && AnySuffixMatch(SafeDomains, domain))
  }

  /** An exact or dot-suffix match always passes the substring guard. */
  lemma SuffixMatchIsContained(domain: string, safe: string)
    requires SuffixMatch(domain, safe)
    ensures IsSubstring(safe, domain)
  {
    if domain == safe {
      assert OccursAt(safe, domain, 0);
    } else {
      var k := |domain| - |safe|;
      assert domain[k..k + |safe|] == ("." + safe)[1..];
      assert OccursAt(safe, domain, k);
    }
  }

  /**
    The whitelist decision is exactly: the raw domain is an entry, or the
    domain equals an entry or ends with "." + entry. Mere containment of
    an entry is never enough.
   */
  lemma WhitelistIsExactOrDotSuffix(rawDomain: string, domain: string)
    ensures IsWhitelisted(rawDomain, domain) <==>
      rawDomain in SafeDomains || exists k :: 0 <= k < |SafeDomains| && SuffixMatch(domain, SafeDomains[k])
  {
    if exists k :: 0 <= k < |SafeDomains| && SuffixMatch(domain, SafeDomains[k]) {
      var k :| 0 <= k < |SafeDomains| && SuffixMatch(domain, SafeDomains[k]);
      SuffixMatchIsContained(domain, SafeDomains[k]);
    }
  }

  /** Ending with "." + entry puts a dot right before the entry. */
  lemma DotSuffixParts(d: string, safe: string)
    requires EndsWith(d, "." + safe)
    ensures d[|d| - |safe| - 1] == '.' && d[|d| - |safe|..] == safe
  {
    assert d[|d| - |safe|..] == d[|d| - |safe| - 1..][1..];
  }

  /**
    A spoofing domain that merely contains "google" is not trusted:
    "fake-google.com" is no entry and its only dot-suffix is "com".
   */
  lemma SpoofedDomainNotWhitelisted()
    ensures !IsWhitelisted("fake-google.com", "fake-google.com")
  {
    var d := "fake-google.com";
    forall k | 0 <= k < |SafeDomains|
      ensures !SuffixMatch(d, SafeDomains[k])
    {
      var safe := SafeDomains[k];
      if EndsWith(d, "." + safe) {
        DotSuffixParts(d, safe);
      }
    }
    WhitelistIsExactOrDotSuffix(d, d);
  }

  /** A sub-domain of a trusted domain is trusted through the dot-suffix rule. */
  lemma SubdomainWhitelisted()
    ensures IsWhitelisted("mail.google.com", "mail.google.com")
  {
    assert SafeDomains[1] == "google.com";
    assert EndsWith("mail.google.com", "." + SafeDomains[1]);
    WhitelistIsExactOrDotSuffix("mail.google.com", "mail.google.com");
  }

}
